=== FILE: README.md ===
# YouTube timestamps and summary: a Dafny model of the pure core

The application takes a YouTube URL, fetches the video's captions, and asks a
generative model for chapter timestamps and a prose summary. This project
models the deterministic logic around those two external services. The
model's reply, `JSON.parse`, the array-span regular expression and the
transcript library are parameters. Everything else is written out as pure
Dafny functions, with contracts and lemmas about them.

Modules, following the source files:

- `JsStrings` and `JsNumbers` are the JavaScript built-ins the code relies
  on. They cover `trim` with ECMAScript's whitespace set, `split` and `join`
  on one character, `length` in UTF-16 code units, `String(n)`, `padStart`,
  `Number(s)` on integer literals, and `parseInt`.
- `TimeFormat` is `formatTime` (`src/utils/gemini.js`). It works on exact
  reals, with JavaScript's truncating `%`. `Clock` is an integer-only
  reference definition.
- `Domain` holds the shared records: caption entries, segments, exceptions,
  and call outcomes.
- `Timestamps` is `generateTimestamps`:
  - the transcript listing;
  - the three-step parse cascade;
  - the scanner for `"time"` and `"title"` fields;
  - the repair of all-blank times;
  - the six-point default set;
  - the rethrow of a failed model call.
- `Summary` is `generateSummary`: the trimmed reply, the deterministic
  fallback, and the generic apology when the fallback itself throws.
- `VideoId` is `extractVideoId` and the null check of `getVideoTranscript`
  (`src/utils/transcript.js`). The greedy regular expression is written as
  an explicit right-to-left marker scanner.
- `FrontEnd` covers `isValidYoutubeUrl` and `getYouTubeUrlWithTimestamp`
  (`public/js/main.js`): the anchored URL pattern, the leftmost id match,
  time-string-to-seconds, and link construction. It proves that reading a
  time back inverts `formatTime`.

Behaviour of the code that a reader may not expect, each stated by the member named:

- A failed model call makes `generateTimestamps` reject with the same exception (`Timestamps.GenerateTimestamps`).
- On an empty transcript, `transcript[transcript.length - 1]` throws wherever it is read. `generateTimestamps` reads it only when the parsed list is empty (the default set) or has only blank times (the redistribution). On those two paths it rejects with a `TypeError`; a parsed list with some non-blank time is still returned (`Timestamps.GenerateTimestamps`). `generateSummary` reads it only after the model call failed, and then returns its generic apology; a successful reply is returned trimmed whatever the transcript (`Summary.GenerateSummary`).
- When the model call fails and the transcript has fewer than three entries, the fallback summary's own indexing throws. The generic apology is returned, not a fallback built from the transcript.
- Redistributed times are floored whole seconds, so two segments can get the same time on a short video (`Timestamps.SlotsOrdered`).
- `extractVideoId` does not restrict the id to `[A-Za-z0-9_-]`. Any capture free of `#`, `&` and `?` whose JavaScript `length` is 11 is accepted. That `length` counts UTF-16 code units, so an id can have fewer than 11 characters (`VideoId.AstralIdAccepted`).
- The marker `extractVideoId` uses is the rightmost one on the first line, not the first one (`VideoId.RightmostMarkerWins`).
- The deep links are built from the untrimmed input field, while acceptance tests the trimmed text. For accepted input the two give the same link (`FrontEnd.InputLink`).
- `getVideoTranscript` rejects with `Invalid YouTube URL` when no id can be extracted, and otherwise passes the library's result or rejection through unchanged (`VideoId.GetVideoTranscript`).

## Model

| member | source | states |
|---|---|---|
| TimeFormat.FieldsOfNonNegative | src/utils/gemini.js:185-187 | for a non-negative argument, the hours, minutes and seconds fields are floor(x)/3600, (floor(x) mod 3600)/60 and floor(x) mod 60 |
| TimeFormat.FormatTimeTruncates | src/utils/gemini.js:184-194 | a non-negative fractional time formats exactly like its whole seconds |
| TimeFormat.FormatTimeOfSeconds | src/utils/gemini.js:184-194 | whole seconds format as the integer clock: `h:mm:ss` from one hour on, `m:ss` below it |
| TimeFormat.FormatTimeIsClock | src/utils/gemini.js:184-194 | any non-negative time formats as the clock of its floor |
| TimeFormat.LayoutOfSeconds | src/utils/gemini.js:189-193 | the three fields of n seconds lay out as the clock of n |
| TimeFormat.LongLayout | src/utils/gemini.js:189-191 | with hours present, minutes and seconds are padded to two digits and hours are not |
| TimeFormat.ShortLayout | src/utils/gemini.js:193 | without hours, minutes are unpadded and seconds padded to two digits |
| TimeFormat.TwoDigits | src/utils/gemini.js:190 | a number below 100 padded to exactly two decimal digits that read back as the number |
| TimeFormat.Hours | src/utils/gemini.js:185 | the whole hours: the largest h with 3600·h not above the argument |
| TimeFormat.Minutes | src/utils/gemini.js:186 | the minutes within the hour: 0 to 59 for a non-negative argument, and 0 down to -60 for a negative one, because `%` truncates |
| TimeFormat.Secs | src/utils/gemini.js:187 | the seconds within the minute, with the same ranges as the minutes |
| TimeFormat.Pad2 | src/utils/gemini.js:190-193 | `padStart(2, '0')` gives two digits for 0 to 99, leaves a rendering of two or more characters unchanged, and never adds a colon |
| TimeFormat.Layout | src/utils/gemini.js:189-193 | split on `:`, the output gives back hours, padded minutes and padded seconds when the hours are positive, and otherwise minutes and padded seconds |
| TimeFormat.FormatTime | src/utils/gemini.js:184-194 | `formatTime` itself, carrying no contract of its own; its meaning is stated by `FormatTimeIsClock` (and `FormatTimeOfSeconds`) |
| TimeFormat.MinutesExample | src/utils/gemini.js:193 | 75 seconds on the reference clock read `1:15` |
| TimeFormat.MinutesFormatted | src/utils/gemini.js:193 | `formatTime(75)` is `1:15` |
| TimeFormat.HoursExample | src/utils/gemini.js:190 | 3661 seconds on the reference clock read `1:01:01` |
| TimeFormat.HoursFormatted | src/utils/gemini.js:190 | `formatTime(3661)` is `1:01:01` |
| JsNumbers.NatToString | src/utils/gemini.js:190 | decimal rendering is a non-empty digit string with no leading zero, of length one exactly below ten |
| JsNumbers.NatToStringRoundTrip | src/utils/gemini.js:190 | reading the decimal rendering of n gives back n |
| JsNumbers.PadStart | src/utils/gemini.js:190 | `padStart` keeps the string as a suffix, fills only in front, and reaches the width |
| JsNumbers.ToNumber | public/js/main.js:92 | `Number` of a blank or whitespace-only string is 0; `ToNumberOfDigits` gives its value on digit strings |
| JsNumbers.ToNumberOfDigits | public/js/main.js:92 | `Number` of a digit string is its decimal value |
| JsNumbers.ParseInt | public/js/main.js:101 | `parseInt` of a blank or whitespace-only string is NaN, having no digits; `ParseIntOfDigits` gives its value on digit strings |
| JsNumbers.ParseIntOfDigits | public/js/main.js:101 | `parseInt` of a non-empty digit string is its decimal value |
| JsStrings.Trim | public/js/main.js:18 | the trimmed string has no whitespace at either end and is empty exactly when the input is all whitespace |
| JsStrings.TrimIsCore | public/js/main.js:18 | the trimmed string is the input with one whitespace run removed from each end |
| JsStrings.TrimIgnoresSurroundingSpace | public/js/main.js:18 | whitespace added at either end does not change the trimmed result |
| JsStrings.TrimOfTrimmed | src/utils/gemini.js:157 | trimming a string with no whitespace at its ends leaves it unchanged |
| JsStrings.Split | public/js/main.js:92 | `split` gives one part more than separators, and no part contains the separator |
| JsStrings.SplitJoin | src/utils/gemini.js:19-21 | splitting a join of separator-free parts gives the parts back |
| JsStrings.CountJoin | src/utils/gemini.js:141 | a join holds the parts' separators plus one per gap |
| Timestamps.Listing | src/utils/gemini.js:19-21 | the prompt's transcript listing, joined with newlines; carries no contract of its own, its line structure is stated by `ListingLines` |
| Timestamps.ListingLines | src/utils/gemini.js:19-21 | with newline-free captions the listing has one line per entry, each the clock of the entry's whole seconds then `: ` and the text |
| Timestamps.FieldAt | src/utils/gemini.js:76-77 | a field match ends after its start and captures a value free of `"` |
| Timestamps.FieldAtOfField | src/utils/gemini.js:75-82 | a field written `"key"`, any whitespace, `:`, any whitespace, then a quote-free `"value"` is recognised at its opening quote, yielding that value, and the scan resumes just after its closing quote |
| Timestamps.FieldOfFieldAt | src/utils/gemini.js:76-77 | conversely, every match is `"key"`, whitespace, `:`, whitespace and the quoted captured value, exactly up to the match's end |
| Timestamps.TimeFieldExample | src/utils/gemini.js:75-76 | the comment's own example `"time": "0:00"` yields `0:00`, whatever follows it |
| Timestamps.FieldValues | src/utils/gemini.js:76-77 | every value the global field match collects is free of `"` |
| Timestamps.FieldValuesEmpty | src/utils/gemini.js:76-78 | the global match collects nothing exactly when no position starts a match, so `timeMatches` is null exactly then |
| Timestamps.FieldValuesLeftmost | src/utils/gemini.js:76-77 | the first value collected is that of the leftmost match, and collection resumes right after that match |
| Timestamps.AllBlankTimes | src/utils/gemini.js:90-97 | the front-to-back scan that stops at the first time other than `0:00` or empty succeeds exactly when every time is `0:00` or empty |
| Timestamps.PairFields | src/utils/gemini.js:79-85 | equal time and title counts give that many segments pairing the i-th time with the i-th title; unequal counts give none |
| Timestamps.SpanList | src/utils/gemini.js:63-71 | no array span gives no segments, and a non-empty result is exactly what parsing the span found gives |
| Timestamps.ParseCascade | src/utils/gemini.js:57-87 | a whole-text parse wins, even an empty list; otherwise the array span when it yields segments; otherwise positional pairing |
| Timestamps.Redistribute | src/utils/gemini.js:100-108 | the segment count and every title are kept, and segment i of n gets the clock of floor(D*(i+1)/(n+1)) |
| Timestamps.SlotTime | src/utils/gemini.js:102-107 | the source's real-valued slot position formats as the clock of the integer slot seconds |
| Timestamps.SlotsOrdered | src/utils/gemini.js:102-107 | slot seconds never decrease with i and lie strictly before the end of a non-empty video |
| Timestamps.DefaultSegments | src/utils/gemini.js:113-124 | exactly six segments with the fixed titles; the first time is `0:00` and each is the clock of its fraction of the video |
| Timestamps.DefaultTime | src/utils/gemini.js:119-123 | `formatTime(videoDuration * f)` is the clock of floor(lastOffset * percent / 100000) |
| Timestamps.DefaultsOrdered | src/utils/gemini.js:117-124 | default points never decrease and never pass the end of the video |
| Timestamps.DefaultExample | src/utils/gemini.js:121 | a video whose last caption starts at 95 s has its 0.4 point at `0:38` |
| Timestamps.GenerateTimestamps | src/utils/gemini.js:17-131 | a failed model call is rethrown; with captions, the cascade's segments are returned verbatim, re-timed with titles kept when all blank, or replaced by the defaults when empty |
| Summary.Texts | src/utils/gemini.js:141 | one text per entry, in order |
| Summary.TranscriptText | src/utils/gemini.js:141 | the texts joined by single spaces, empty for no entries; when no text holds a space, splitting on spaces gives the texts back |
| Summary.WordCount | src/utils/gemini.js:162 | the split always has at least one part, so the word count is at least 1; `WordCountCountsSpaces` gives its exact value |
| Summary.WordCountCountsSpaces | src/utils/gemini.js:162 | the word count is the number of spaces inside the texts plus the number of entries (1 for no entries) |
| Summary.LengthMinutes | src/utils/gemini.js:163 | the whole minutes up to the last entry's offset |
| Summary.FallbackSummary | src/utils/gemini.js:165-171 | the fallback quotes the first three and the last three texts |
| Summary.GenerateSummary | src/utils/gemini.js:139-177 | a reply comes back trimmed; a failure gives the fallback with three or more entries and the fixed apology otherwise |
| Summary.ReplyKeptVerbatim | src/utils/gemini.js:155-157 | on success the summary is the reply with only its surrounding whitespace removed |
| Summary.TrimmedReplyUnchanged | src/utils/gemini.js:157 | a reply with no whitespace at its ends is returned as is |
| Summary.FallbackContents | src/utils/gemini.js:158-171 | the fallback contains the length in minutes, the word count, and each of the first three and last three texts |
| VideoId.FirstLineEnd | src/utils/transcript.js:9 | the end of the first line: no line terminator before it, one at it unless at the end |
| VideoId.MarkerLength | src/utils/transcript.js:9 | a marker alternative spans at least two characters and ends in `/` or `v=` |
| VideoId.MarkerEnd | src/utils/transcript.js:9 | a marker found at p ends within the string and after p+2, in `/` or `v=` |
| VideoId.LastMarkerUpTo | src/utils/transcript.js:9 | the marker found is the last one at or before the bound, and none means no marker up to it |
| VideoId.IdRun | src/utils/transcript.js:9 | the capture is the longest run free of `#`, `&`, `?` after the marker |
| VideoId.ExtractVideoId | src/utils/transcript.js:8-12 | a result has JavaScript length 11 (UTF-16 code units, so 6 to 11 characters), holds no `#`, `&`, `?`, and is the capture after a rightmost first-line marker; no marker gives null |
| VideoId.ExtractAtRightmost | src/utils/transcript.js:9-11 | once the rightmost first-line marker is known, the result is its capture when that capture's UTF-16 length is 11 and null otherwise |
| VideoId.LinkYieldsId | src/utils/transcript.js:8-12 | a one-line prefix holding a marker that closes at its end, with every later marker closing there too, followed by an id of length 11 and a marker-free rest starting with `#`, `&`, `?` or nothing, yields the id |
| VideoId.AstralIdAccepted | src/utils/transcript.js:11 | an id of five U+1F600 and `a` (six characters, JavaScript length 11) is accepted from a short link |
| JsStrings.Utf16LengthIsSize | src/utils/transcript.js:11 | `length` equals the number of characters exactly when every character lies in the Basic Multilingual Plane |
| JsStrings.Utf16LengthConcat | src/utils/transcript.js:11 | `length` of a concatenation is the sum of the lengths |
| VideoId.ShortLinkId | src/utils/transcript.js:8-12 | `https://youtu.be/<id>` followed by nothing or a query yields the id |
| VideoId.WatchLinkId | src/utils/transcript.js:8-12 | `https://www.youtube.com/watch?v=<id>` followed by nothing or a query yields the id |
| VideoId.EmbedLinkId | src/utils/transcript.js:8-12 | `https://www.youtube.com/embed/<id>` followed by nothing or a query yields the id |
| VideoId.UserLinkId | src/utils/transcript.js:8-12 | `https://www.youtube.com/u/<name>/<id>` yields the id for any `\w+` name, including names ending in `v` or `e` |
| VideoId.TrailingSlashRefused | src/utils/transcript.js:9-11 | a short link with a trailing `/` yields null, since its capture has length 12 |
| VideoId.RightmostMarkerWins | src/utils/transcript.js:9-11 | a later `/v/` overrides the `v=` id; what follows it is returned if its length is 11, else null |
| VideoId.GetVideoTranscript | src/utils/transcript.js:19-31 | no id gives the `Invalid YouTube URL` rejection without fetching; an id gives exactly the library's outcome for it |
| FrontEnd.MarkerLength | public/js/main.js:80 | the watch or short marker at a position, both directions of each match |
| FrontEnd.SchemeHostLength | public/js/main.js:80 | the optional scheme and `www.` taken are one of the six allowed prefixes |
| FrontEnd.IsValidYoutubeUrl | public/js/main.js:79-82 | an accepted URL contains no whitespace |
| FrontEnd.ValidUrlMatchesPattern | public/js/main.js:80 | acceptance holds exactly when some allowed prefix is followed by a marker, 11 id characters and a whitespace-free tail |
| FrontEnd.PrefixDetermined | public/js/main.js:80 | only one allowed prefix can precede a marker |
| FrontEnd.AcceptsInput | public/js/main.js:18-20 | accepted input is whitespace-free once trimmed |
| FrontEnd.SurroundingSpaceIgnored | public/js/main.js:18-20 | surrounding whitespace never changes whether input is accepted |
| FrontEnd.PaddedValidUrlAccepted | public/js/main.js:18-20 | a valid URL padded with whitespace is accepted |
| FrontEnd.FirstIdMatch | public/js/main.js:86 | the leftmost position where a marker and 11 id characters start, and none means no such position |
| FrontEnd.LinkVideoId | public/js/main.js:86-87 | the empty id exactly when nothing matches; otherwise the 11 id characters after the leftmost match |
| FrontEnd.ValidUrlLinkId | public/js/main.js:79-87 | on an accepted URL the deep-link id is the 11 characters right after its marker, never empty |
| FrontEnd.TimestampSeconds | public/js/main.js:89-102 | a time string with more than three colon-separated parts gives 0 seconds |
| FrontEnd.NumberParts | public/js/main.js:92 | one number per part, the k-th being `Number` of the k-th part |
| FrontEnd.CombineParts | public/js/main.js:93-99 | two or three parts give a number exactly when every part is one; other counts give 0 |
| FrontEnd.MinutesSecondsValue | public/js/main.js:93-95 | `m:ss` in digits converts to m*60+s |
| FrontEnd.HoursMinutesSecondsValue | public/js/main.js:96-98 | `h:mm:ss` in digits converts to h*3600+m*60+s |
| FrontEnd.PlainSecondsValue | public/js/main.js:100-102 | a colon-free digit string converts to its value through `parseInt` |
| FrontEnd.ClockRoundTrip | public/js/main.js:89-102 | converting the clock of n seconds back gives exactly n |
| FrontEnd.FormatTimeRoundTrip | public/js/main.js:89-102 | converting `formatTime(x)` back gives floor(x) for every non-negative x |
| FrontEnd.SecondsQuery | public/js/main.js:104 | the `&t=<seconds>s` query starts with `&` and has no whitespace |
| FrontEnd.TimestampLink | public/js/main.js:84-105 | the link passes the URL check exactly when an id was found, and then carries that same id |
| FrontEnd.WatchLinkOpens | public/js/main.js:104 | a watch link built from an id and a query is accepted exactly for a non-empty id and yields that id back |
| FrontEnd.ClockLink | public/js/main.js:84-105 | for an accepted URL and a clock time, the link is the watch prefix, the URL's id and `&t=<n>s` |
| FrontEnd.InputLinkId | public/js/main.js:86-87 | for accepted input, the id found in the raw input field is the one found in its trimmed text |
| FrontEnd.InputLink | public/js/main.js:58 | the links are built from the raw input field, not the trimmed text that was tested; for accepted input both give the same link for every timestamp |
| FrontEnd.InputClockLink | public/js/main.js:84-105 | for accepted input and a clock time, the link is the watch prefix, the trimmed URL's id and `&t=<n>s` |

## Left out

- The generative model client is a parameter (`ModelReply`): its setup, API key, model name and prompt wording are left out.
- `JSON.parse` and the `/\[\s*\{.*\}\s*\]/s` span are left out. They are the parameters `parseJson` and `arraySpan` of `GenerateTimestamps`. A JSON value that is not an array of `{time, title}` objects is outside the model.
- `YoutubeTranscript.fetchTranscript` is the parameter `fetch` of `GetVideoTranscript`. Logging of a rejection before it is rethrown is left out.
- IEEE double rounding is left out. `offset / 1000`, the slot size, the 0.2…0.95 multipliers and `%` are exact reals and integers, so results can differ from the source only at exact rounding boundaries.
- JsNumbers.ToNumber: models `Number(s)` only for blank strings and optionally signed decimal integers. Decimals, exponents, hex literals and `Infinity` give `NaN` here, while JavaScript gives numbers. So `TimestampSeconds` is exact only on integer parts.
- Numbers in the time conversion are exact integers. There is no overflow to `Infinity` and no `-0`.
- The in-place update of `timestamps[i].time` is a new list with the times replaced. No other code observes the old list.
- Express routing, status codes, the page's DOM and `fetch` code, and console logging are left out.
- `src/index.js` is not part of this model. Its non-empty-transcript check is reflected only in the contracts that need `|transcript| >= 1`.


=== FILE: domain.dfy ===
/** The records that flow between the components: caption entries as the
    transcript library returns them, the timestamp segments the model is
    asked for, and the two ways a call can end (a value or a thrown
    exception). */
module Domain {

  datatype Option<+T> = None | Some(value: T)

  /** One caption line: its text, its start and its length in milliseconds. */
  datatype Entry = Entry(text: string, offset: nat, duration: nat)

  /** One synthesized chapter mark: a clock string and a title. */
  datatype Segment = Segment(time: string, title: string)

  /** What a JavaScript `throw` carries in this application: an `Error` with
      a message (the one thrown by the code, or one raised by a library or
      the model client), or the `TypeError` of reading a property of `undefined`. */
  datatype Exception = Error(message: string) | TypeError

  /** An asynchronous call either resolves with a value or rejects. */
  datatype Outcome<+T> = Ok(value: T) | Thrown(exception: Exception)

  /** What the generative model call produced: its response text, or the
      exception `generateContent` (or reading its text) threw. */
  datatype ModelReply = Replied(text: string) | Failed(exception: Exception)
}

=== FILE: front_end.dfy ===
/** public/js/main.js: the URL gate in front of the request
    (`isValidYoutubeUrl` on the trimmed input) and the deep link each
    timestamp opens (`getYouTubeUrlWithTimestamp`). The DOM, the request
    and the rendering are left out. */
module FrontEnd {
  import opened JsStrings
  import opened JsNumbers
  import opened TimeFormat
  import opened Domain

  const WatchMarker: string := "youtube.com/watch?v="
  const ShortMarker: string := "youtu.be/"

  /** The class `[a-zA-Z0-9_-]`. */
  predicate IsIdChar(c: char) {
    ('a' <= c <= 'z') || ('A' <= c <= 'Z') || ('0' <= c <= '9') || c == '_' || c == '-'
  }

  /** Length of `youtube\.com\/watch\?v=` or `youtu\.be\/` at `i`, 0 when
      neither is there (both begin with `y`, and they differ at their sixth
      character, so at most one can match). */
  function MarkerLength(u: string, i: nat): (m: nat)
    requires i <= |u|
    ensures m == 0 || m == |WatchMarker| || m == |ShortMarker|
    ensures m > 0 ==> i + m <= |u| && u[i] == 'y'
    ensures m == |WatchMarker| <==> StartsWith(u[i..], WatchMarker)
    ensures m == |ShortMarker| <==> StartsWith(u[i..], ShortMarker)
  {
    if StartsWith(u[i..], WatchMarker) then
      assert u[i] == u[i..][0];
      assert u[i..][5] == 'b';
      |WatchMarker|
    else if StartsWith(u[i..], ShortMarker) then
      assert u[i] == u[i..][0];
      |ShortMarker|
    else 0
  }

  /** Eleven id characters start at `j`. */
  predicate IdAt(u: string, j: nat) {
    j + 11 <= |u| && forall k :: j <= k < j + 11 ==> IsIdChar(u[k])
  }

  /** From `i` on, `u` is a marker, eleven id characters, and then only
      non-whitespace up to the end: `(marker)([a-zA-Z0-9_-]{11})(\S*)?$`. */
  predicate LinkBodyAt(u: string, i: nat)
    requires i <= |u|
  {
    var m := MarkerLength(u, i);
    m > 0 && IdAt(u, i + m) && NoSpace(u[i + m + 11..])
  }

  /** The six ways `^(https?:\/\/)?(www\.)?` can match. */
  const SchemeHostPrefixes: seq<string> :=
    ["", "www.", "http://", "http://www.", "https://", "https://www."]

  /** What `isValidYoutubeUrl` accepts, stated as the regular expression
      reads: one of the six prefixes, then the link body to the end. */
  ghost predicate MatchesUrlPattern(u: string) {
    exists i :: 0 <= i <= |u| && u[..i] in SchemeHostPrefixes && LinkBodyAt(u, i)
  }

  /** How much of `u` the optional scheme and `www.` groups take when they take all they can. */
  function SchemeHostLength(u: string): (b: nat)
    ensures b <= |u| && u[..b] in SchemeHostPrefixes
  {
    var a := if StartsWith(u, "https://") then 8 else if StartsWith(u, "http://") then 7 else 0;
    assert u[..a] == SchemeHostPrefixes[if a == 0 then 0 else if a == 7 then 2 else 4];
    if StartsWith(u[a..], "www.") then
      assert u[..a + 4] == u[..a] + u[a..][..4];
      assert u[..a + 4] == SchemeHostPrefixes[if a == 0 then 1 else if a == 7 then 3 else 5];
      a + 4
    else a
  }

  /** None of the six prefixes holds whitespace or a `y`. */
  lemma {:induction false} PrefixChars(p: string)
    requires p in SchemeHostPrefixes
    ensures forall k :: 0 <= k < |p| ==> !IsSpace(p[k]) && p[k] != 'y'
  {
    var k :| 0 <= k < |SchemeHostPrefixes| && SchemeHostPrefixes[k] == p;
    assert k == 0 || k == 1 || k == 2 || k == 3 || k == 4 || k == 5;
  }

  /** `isValidYoutubeUrl(url)`: a bare, http or https YouTube watch or
      short link, with or without `www.`, an 11-character id, and nothing
      but non-whitespace after it. */
  function IsValidYoutubeUrl(url: string): (r: bool)
    ensures r ==> NoSpace(url)
  {
    var b := SchemeHostLength(url);
    if LinkBodyAt(url, b) then
      ValidUrlHasNoSpace(url, b);
      true
    else false
  }

  lemma {:induction false} ValidUrlHasNoSpace(url: string, b: nat)
    requires b <= |url| && url[..b] in SchemeHostPrefixes && LinkBodyAt(url, b)
    ensures NoSpace(url)
  {
    var m := MarkerLength(url, b);
    PrefixChars(url[..b]);
    assert url[0..b] == url[..b];
    MarkerHasNoSpace(url, b);
    IdHasNoSpace(url, b + m);
    assert url[b + m + 11..|url|] == url[b + m + 11..];
    NoSpaceAdjacent(url, 0, b, b + m);
    NoSpaceAdjacent(url, 0, b + m, b + m + 11);
    NoSpaceAdjacent(url, 0, b + m + 11, |url|);
    assert url[0..|url|] == url;
  }

  /** Two adjacent whitespace-free stretches make one. */
  lemma {:induction false} NoSpaceAdjacent(u: string, i: nat, j: nat, k: nat)
    requires i <= j <= k <= |u| && NoSpace(u[i..j]) && NoSpace(u[j..k])
    ensures NoSpace(u[i..k])
  {
    forall q | i <= q < k
      ensures !IsSpace(u[q])
    {
      if q < j {
        assert u[q] == u[i..j][q - i];
      } else {
        assert u[q] == u[j..k][q - j];
      }
    }
  }

  lemma {:induction false} MarkerHasNoSpace(u: string, i: nat)
    requires i <= |u| && MarkerLength(u, i) > 0
    ensures NoSpace(u[i..i + MarkerLength(u, i)])
  {
    assert u[i..i + MarkerLength(u, i)] == u[i..][..MarkerLength(u, i)];
    assert NoSpace(WatchMarker) && NoSpace(ShortMarker);
  }

  lemma {:induction false} IdHasNoSpace(u: string, j: nat)
    requires IdAt(u, j)
    ensures NoSpace(u[j..j + 11])
  {
    var id := u[j..j + 11];
    forall k | 0 <= k < 11
      ensures !IsSpace(id[k])
    {
      assert IsIdChar(u[j + k]);
    }
  }

  lemma {:induction false} NoSpaceConcat(a: string, b: string)
    requires NoSpace(a) && NoSpace(b)
    ensures NoSpace(a + b)
  {
    forall k | 0 <= k < |a + b|
      ensures !IsSpace((a + b)[k])
    {
      if k >= |a| {
        assert (a + b)[k] == b[k - |a|];
      }
    }
  }

  /** The greedy reading of the optional groups is the only one that can
      succeed: none of the six prefixes contains a `y`, and a marker starts with one. */
  lemma {:induction false} PrefixDetermined(u: string, i: nat)
    requires i <= |u| && u[..i] in SchemeHostPrefixes && MarkerLength(u, i) > 0
    ensures SchemeHostLength(u) == i
  {
    assert u[i] == 'y';
    var p := u[..i];
    if p == "" {
    } else if p == "www." {
      assert u[..4] == "www.";
    } else if p == "http://" {
      PlainPrefix(u);
    } else if p == "http://www." {
      PlainHostPrefix(u);
    } else if p == "https://" {
      SecurePrefix(u);
    } else {
      SecureHostPrefix(u);
    }
  }

  lemma {:induction false} PlainPrefix(u: string)
    requires |u| > 7 && u[..7] == "http://" && u[7] == 'y'
    ensures SchemeHostLength(u) == 7
  {
    assert !StartsWith(u, "https://") by { assert u[4] == u[..7][4]; }
    assert u[..7] == "http://";
    assert !StartsWith(u[7..], "www.") by { assert u[7..][0] == 'y'; }
  }

  lemma {:induction false} PlainHostPrefix(u: string)
    requires |u| >= 11 && u[..11] == "http://www."
    ensures SchemeHostLength(u) == 11
  {
    assert !StartsWith(u, "https://") by { assert u[4] == u[..11][4]; }
    assert u[..7] == u[..11][..7];
    assert u[7..][..4] == u[..11][7..];
  }

  lemma {:induction false} SecurePrefix(u: string)
    requires |u| > 8 && u[..8] == "https://" && u[8] == 'y'
    ensures SchemeHostLength(u) == 8
  {
    assert !StartsWith(u[8..], "www.") by { assert u[8..][0] == 'y'; }
  }

  lemma {:induction false} SecureHostPrefix(u: string)
    requires |u| >= 12 && u[..12] == "https://www."
    ensures SchemeHostLength(u) == 12
  {
    assert u[..8] == u[..12][..8];
    assert u[8..][..4] == u[..12][8..];
  }

  /** `isValidYoutubeUrl` is exactly what its regular expression accepts, in both directions. */
  lemma {:induction false} ValidUrlMatchesPattern(u: string)
    ensures IsValidYoutubeUrl(u) <==> MatchesUrlPattern(u)
  {
    if MatchesUrlPattern(u) {
      var i :| 0 <= i <= |u| && u[..i] in SchemeHostPrefixes && LinkBodyAt(u, i);
      PrefixDetermined(u, i);
    }
    if IsValidYoutubeUrl(u) {
      var b := SchemeHostLength(u);
      assert u[..b] in SchemeHostPrefixes && LinkBodyAt(u, b);
    }
  }

  /** `handleGenerate` tests the trimmed input. */
  function AcceptsInput(raw: string): (r: bool)
    ensures r ==> NoSpace(Trim(raw))
  {
    IsValidYoutubeUrl(Trim(raw))
  }

  /** Whitespace typed around a link never decides whether it is accepted. */
  lemma {:induction false} SurroundingSpaceIgnored(front: string, url: string, back: string)
    requires AllSpace(front) && AllSpace(back)
    ensures AcceptsInput(front + url + back) == AcceptsInput(url)
  {
    TrimIgnoresSurroundingSpace(front, url, back);
  }

  /** A valid link, however padded, is accepted. */
  lemma {:induction false} PaddedValidUrlAccepted(front: string, url: string, back: string)
    requires AllSpace(front) && AllSpace(back) && IsValidYoutubeUrl(url)
    ensures AcceptsInput(front + url + back)
  {
    TrimIgnoresSurroundingSpace(front, url, back);
    if url != [] {
      assert url[0] == url[..SchemeHostLength(url) + 1][0];
    }
    TrimOfTrimmed(url);
  }

  /** At `i`, `(?:youtube\.com\/watch\?v=|youtu\.be\/)([a-zA-Z0-9_-]{11})` matches. */
  predicate IdMatchAt(u: string, i: nat)
    requires i <= |u|
  {
    MarkerLength(u, i) > 0 && IdAt(u, i + MarkerLength(u, i))
  }

  /** The leftmost position at or after `i` where the id pattern matches. */
  function FirstIdMatch(u: string, i: nat): (r: Option<nat>)
    requires i <= |u|
    ensures r.Some? ==> i <= r.value <= |u| && IdMatchAt(u, r.value)
    ensures r.Some? ==> forall j :: i <= j < r.value ==> !IdMatchAt(u, j)
    ensures r.None? ==> forall j :: i <= j <= |u| ==> !IdMatchAt(u, j)
    decreases |u| - i
  {
    if IdMatchAt(u, i) then Some(i)
    else if i == |u| then None
    else FirstIdMatch(u, i + 1)
  }

  /** The id the deep link uses: the capture of the leftmost match of the
      id pattern, or `''` when the pattern matches nowhere. */
  function LinkVideoId(url: string): (id: string)
    ensures id == "" <==> forall j :: 0 <= j <= |url| ==> !IdMatchAt(url, j)
    ensures id != "" ==> |id| == 11 && forall k :: 0 <= k < |id| ==> IsIdChar(id[k])
    ensures id != "" ==> exists i :: 0 <= i <= |url| && IdMatchAt(url, i)
                                     && (forall j :: 0 <= j < i ==> !IdMatchAt(url, j))
                                     && id == url[i + MarkerLength(url, i)..i + MarkerLength(url, i) + 11]
  {
    match FirstIdMatch(url, 0)
    case None => ""
    case Some(i) =>
      var m := MarkerLength(url, i);
      var id := url[i + m..i + m + 11];
      assert id[0] == url[i + m];
      id
  }

  /** For an accepted URL the deep link uses the eleven characters right
      after its marker: the prefix before the marker holds no `y`, so no
      earlier match exists. */
  lemma {:induction false} ValidUrlLinkId(url: string)
    requires IsValidYoutubeUrl(url)
    ensures var b := SchemeHostLength(url);
            var m := MarkerLength(url, b);
            LinkVideoId(url) == url[b + m..b + m + 11]
  {
    var b := SchemeHostLength(url);
    assert url[0..|url|] == url;
    assert IdMatchAt(url, b);
    CarriedLinkId(url, 0, url, b);
  }

  /** The seconds `getYouTubeUrlWithTimestamp` puts in the link: with a
      colon, the parts read by `Number` as `m:ss` or `h:mm:ss`, and 0 for
      any other number of parts; without one, `parseInt`. */
  function TimestampSeconds(timestamp: string): (r: JsNumber)
    ensures Count(timestamp, ':') >= 3 ==> r == Finite(0)
  {
    if ':' in timestamp then
      CombineParts(NumberParts(Split(timestamp, ':')))
    else
      CountAbsent(timestamp, ':');
      ParseInt(timestamp)
  }

  /** `parts.map(Number)`. */
  function NumberParts(parts: seq<string>): (numbers: seq<JsNumber>)
    ensures |numbers| == |parts|
    ensures forall k :: 0 <= k < |parts| ==> numbers[k] == ToNumber(parts[k])
  {
    seq(|parts|, k requires 0 <= k < |parts| => ToNumber(parts[k]))
  }

  /** Two numbers are minutes and seconds, three are hours, minutes and
      seconds; any other count gives 0. */
  function CombineParts(numbers: seq<JsNumber>): (r: JsNumber)
    ensures |numbers| != 2 && |numbers| != 3 ==> r == Finite(0)
    ensures |numbers| == 2 || |numbers| == 3 ==>
              ((forall k :: 0 <= k < |numbers| ==> numbers[k].Finite?) <==> r.Finite?)
  {
    if |numbers| == 2 then numbers[0].Times(60).Plus(numbers[1])
    else if |numbers| == 3 then numbers[0].Times(3600).Plus(numbers[1].Times(60)).Plus(numbers[2])
    else Finite(0)
  }

  lemma {:induction false} CountAbsent(s: string, c: char)
    requires c !in s
    ensures Count(s, c) == 0
    decreases |s|
  {
    if |s| > 0 {
      assert s == [s[0]] + s[1..];
      CountAbsent(s[1..], c);
    }
  }

  /** A digit string holds no colon. */
  lemma {:induction false} DigitsHaveNoColon(s: string)
    requires AllDigits(s)
    ensures ':' !in s
  {
    forall k | 0 <= k < |s|
      ensures s[k] != ':'
    {
      assert DigitOf(s[k]) < 10;
    }
  }

  /** `m:ss` of two digit strings: minutes times sixty plus seconds. */
  lemma {:induction false} MinutesSecondsValue(a: string, b: string, x: nat, y: nat)
    requires AllDigits(a) && AllDigits(b) && x == ValueIn(a, 10) && y == ValueIn(b, 10)
    ensures TimestampSeconds(a + ":" + b) == Finite(x * 60 + y)
  {
    SplitTwo(a, b);
    ToNumberOfDigits(a);
    ToNumberOfDigits(b);
    TwoNumbers(a + ":" + b, a, b, x, y);
  }

  /** `h:mm:ss` of three digit strings: hours times 3600 plus minutes times sixty plus seconds. */
  lemma {:induction false} HoursMinutesSecondsValue(a: string, b: string, c: string, x: nat, y: nat, z: nat)
    requires AllDigits(a) && AllDigits(b) && AllDigits(c)
    requires x == ValueIn(a, 10) && y == ValueIn(b, 10) && z == ValueIn(c, 10)
    ensures TimestampSeconds(a + ":" + b + ":" + c) == Finite(x * 3600 + y * 60 + z)
  {
    SplitThree(a, b, c);
    ToNumberOfDigits(a);
    ToNumberOfDigits(b);
    ToNumberOfDigits(c);
    ThreeNumbers(a + ":" + b + ":" + c, a, b, c, x, y, z);
  }

  /** A timestamp of two parts whose numbers are known. */
  lemma {:induction false} TwoNumbers(ts: string, a: string, b: string, x: int, y: int)
    requires ':' in ts && Split(ts, ':') == [a, b]
    requires ToNumber(a) == Finite(x) && ToNumber(b) == Finite(y)
    ensures TimestampSeconds(ts) == Finite(x * 60 + y)
  {
    ColonTimestamp(ts);
    NumbersOfTwo(a, b);
    CombineTwo(x, y);
  }

  /** A timestamp of three parts whose numbers are known. */
  lemma {:induction false} ThreeNumbers(ts: string, a: string, b: string, c: string, x: int, y: int, z: int)
    requires ':' in ts && Split(ts, ':') == [a, b, c]
    requires ToNumber(a) == Finite(x) && ToNumber(b) == Finite(y) && ToNumber(c) == Finite(z)
    ensures TimestampSeconds(ts) == Finite(x * 3600 + y * 60 + z)
  {
    ColonTimestamp(ts);
    NumbersOfThree(a, b, c);
    CombineThree(x, y, z);
  }

  /** Two parts are read one by one. */
  lemma {:induction false} NumbersOfTwo(a: string, b: string)
    ensures NumberParts([a, b]) == [ToNumber(a), ToNumber(b)]
  {
    var parts := [a, b];
    var n := NumberParts(parts);
    assert n[0] == ToNumber(parts[0]) && n[1] == ToNumber(parts[1]);
    assert n == [n[0], n[1]];
  }

  /** Three parts are read one by one. */
  lemma {:induction false} NumbersOfThree(a: string, b: string, c: string)
    ensures NumberParts([a, b, c]) == [ToNumber(a), ToNumber(b), ToNumber(c)]
  {
    var parts := [a, b, c];
    var n := NumberParts(parts);
    assert n[0] == ToNumber(parts[0]) && n[1] == ToNumber(parts[1]) && n[2] == ToNumber(parts[2]);
    SeqOfThree(n, ToNumber(a), ToNumber(b), ToNumber(c));
  }

  lemma {:induction false} SeqOfThree<T>(n: seq<T>, p: T, q: T, r: T)
    requires |n| == 3 && n[0] == p && n[1] == q && n[2] == r
    ensures n == [p, q, r]
  {
  }

  lemma {:induction false} ColonTimestamp(ts: string)
    requires ':' in ts
    ensures TimestampSeconds(ts) == CombineParts(NumberParts(Split(ts, ':')))
  {
  }

  lemma {:induction false} CombineTwo(x: int, y: int)
    ensures CombineParts([Finite(x), Finite(y)]) == Finite(x * 60 + y)
  {
  }

  lemma {:induction false} CombineThree(x: int, y: int, z: int)
    ensures CombineParts([Finite(x), Finite(y), Finite(z)]) == Finite(x * 3600 + y * 60 + z)
  {
  }

  lemma {:induction false} SplitTwo(a: string, b: string)
    requires AllDigits(a) && AllDigits(b)
    ensures ':' in a + ":" + b && Split(a + ":" + b, ':') == [a, b]
  {
    DigitsHaveNoColon(a);
    DigitsHaveNoColon(b);
    SplitOfPair(a, b, ':');
    assert (a + ":" + b)[|a|] == ':';
  }

  lemma {:induction false} SplitThree(a: string, b: string, c: string)
    requires AllDigits(a) && AllDigits(b) && AllDigits(c)
    ensures ':' in a + ":" + b + ":" + c && Split(a + ":" + b + ":" + c, ':') == [a, b, c]
  {
    DigitsHaveNoColon(a);
    DigitsHaveNoColon(b);
    DigitsHaveNoColon(c);
    SplitOfTriple(a, b, c, ':');
    assert (a + ":" + b + ":" + c)[|a|] == ':';
  }

  /** Without a colon a digit string is read as plain seconds. */
  lemma {:induction false} PlainSecondsValue(s: string)
    requires |s| >= 1 && AllDigits(s)
    ensures TimestampSeconds(s) == Finite(ValueIn(s, 10))
  {
    DigitsHaveNoColon(s);
    ParseIntOfDigits(s);
  }

  /** Reading a clock string back gives the seconds it was made from. */
  lemma {:induction false} ClockRoundTrip(n: nat)
    ensures TimestampSeconds(Clock(n)) == Finite(n)
  {
    if n >= 3600 {
      LongClockRoundTrip(n, n / 3600, (n % 3600) / 60, n % 60);
    } else {
      ShortClockRoundTrip(n, n / 60, n % 60);
    }
  }

  lemma {:induction false} LongClockRoundTrip(n: nat, h: nat, m: nat, s: nat)
    requires n >= 3600 && h == n / 3600 && m == (n % 3600) / 60 && s == n % 60
    ensures TimestampSeconds(Clock(n)) == Finite(n)
  {
    var hs, ms, ss := NatToString(h), TwoDigits(m), TwoDigits(s);
    NatToStringRoundTrip(h);
    assert Clock(n) == hs + ":" + ms + ":" + ss;
    HoursMinutesSecondsValue(hs, ms, ss, h, m, s);
    ClockFields(n);
  }

  /** Hours, minutes within the hour and seconds within the minute add back up to `n`. */
  lemma {:induction false} ClockFields(n: nat)
    ensures (n / 3600) * 3600 + ((n % 3600) / 60) * 60 + n % 60 == n
  {
    var q, r := n / 3600, n % 3600;
    var m, t := r / 60, r % 60;
    assert n == 3600 * q + r && r == 60 * m + t;
    DivModUnique(n, 60, 60 * q + m, t);
  }

  lemma {:induction false} ShortClockRoundTrip(n: nat, m: nat, s: nat)
    requires n < 3600 && m == n / 60 && s == n % 60
    ensures TimestampSeconds(Clock(n)) == Finite(n)
  {
    var ms, ss := NatToString(m), TwoDigits(s);
    NatToStringRoundTrip(m);
    assert Clock(n) == ms + ":" + ss;
    MinutesSecondsValue(ms, ss, m, s);
    assert m * 60 + s == n;
  }

  /** Every time `formatTime` writes links back to its whole second. */
  lemma {:induction false} FormatTimeRoundTrip(x: real)
    requires x >= 0.0
    ensures TimestampSeconds(FormatTime(x)) == Finite(x.Floor)
  {
    FormatTimeIsClock(x);
    ClockRoundTrip(x.Floor);
  }

  const LinkPrefix: string := "https://www.youtube.com/watch?v="

  /** `&t=${seconds}s`: the query that starts the video at the given second. */
  function SecondsQuery(seconds: JsNumber): (query: string)
    ensures |query| >= 5 && query[0] == '&' && NoSpace(query)
  {
    RenderHasNoSpace(seconds);
    NoSpaceConcat("&t=", Render(seconds));
    NoSpaceConcat("&t=" + Render(seconds), "s");
    "&t=" + Render(seconds) + "s"
  }

  /** `getYouTubeUrlWithTimestamp(url, timestamp)`: the watch link for the
      id found in `url` (empty when none is), starting at the timestamp. It
      is itself an acceptable URL exactly when an id was found, and then it
      opens that same video. */
  function TimestampLink(url: string, timestamp: string): (link: string)
    ensures IsValidYoutubeUrl(link) <==> LinkVideoId(url) != ""
    ensures LinkVideoId(url) != "" ==> LinkVideoId(link) == LinkVideoId(url)
  {
    var videoId := LinkVideoId(url);
    var query := SecondsQuery(TimestampSeconds(timestamp));
    WatchLinkOpens(videoId, query);
    LinkPrefix + videoId + query
  }

  /** Rendered numbers hold no whitespace. */
  lemma {:induction false} RenderHasNoSpace(n: JsNumber)
    ensures NoSpace(Render(n))
  {
    match n
    case NaN =>
    case Finite(v) =>
      var d := NatToString(if v < 0 then -v else v);
      assert forall k :: 0 <= k < |d| ==> DigitOf(d[k]) < 10;
      if v < 0 {
        assert Render(n) == "-" + d;
      }
  }

  /** How `isValidYoutubeUrl` reads a string that starts with the watch-link prefix. */
  lemma {:induction false} WatchLinkPrefix(u: string)
    requires StartsWith(u, LinkPrefix)
    ensures SchemeHostLength(u) == 12 && MarkerLength(u, 12) == |WatchMarker|
  {
    assert u[..8] == LinkPrefix[..8] == "https://";
    assert u[8..][..4] == u[8..12] == LinkPrefix[8..12];
    assert LinkPrefix[8] == LinkPrefix[9] == LinkPrefix[10] == 'w' && LinkPrefix[11] == '.';
    assert u[12..][..20] == u[12..32] == LinkPrefix[12..];
    assert LinkPrefix[12..] == WatchMarker;
  }

  /** A watch link built from an id and a query opens that id, and is
      acceptable only when the id is not empty. */
  lemma {:induction false} WatchLinkOpens(id: string, query: string)
    requires id == "" || (|id| == 11 && forall k :: 0 <= k < 11 ==> IsIdChar(id[k]))
    requires |query| >= 1 && query[0] == '&' && NoSpace(query)
    ensures IsValidYoutubeUrl(LinkPrefix + id + query) <==> id != ""
    ensures id != "" ==> LinkVideoId(LinkPrefix + id + query) == id
  {
    var u := LinkPrefix + id + query;
    assert u[..32] == LinkPrefix;
    WatchLinkPrefix(u);
    if id == "" {
      assert u[32] == query[0];
      assert !IdAt(u, 32);
    } else {
      forall k | 32 <= k < 43
        ensures u[k] == id[k - 32]
      {
      }
      assert u[43..] == query;
      assert LinkBodyAt(u, 12);
      ValidUrlLinkId(u);
      assert u[32..43] == id;
    }
  }

  /** For an accepted page URL, the link for a clock string opens its
      video at the second the clock shows. */
  lemma {:induction false} ClockLink(url: string, n: nat)
    requires IsValidYoutubeUrl(url)
    ensures var b := SchemeHostLength(url);
            var m := MarkerLength(url, b);
            TimestampLink(url, Clock(n)) == LinkPrefix + url[b + m..b + m + 11] + ("&t=" + NatToString(n) + "s")
  {
    ValidUrlLinkId(url);
    ClockRoundTrip(n);
    var query := SecondsQuery(Finite(n));
    assert query == "&t=" + NatToString(n) + "s";
    assert TimestampLink(url, Clock(n)) == LinkPrefix + LinkVideoId(url) + query;
  }

  /** No match of the id pattern starts at a character other than `y`. */
  lemma {:induction false} NoMatchWithoutY(s: string, j: nat)
    requires j < |s| && s[j] != 'y'
    ensures !IdMatchAt(s, j)
  {
  }

  /** A slice of a copy is the copy of the slice. */
  lemma {:induction false} SliceOfCopy(s: string, k: nat, u: string, lo: nat, hi: nat)
    requires k + |u| <= |s| && s[k..k + |u|] == u && lo <= hi <= |u|
    ensures s[k + lo..k + hi] == u[lo..hi]
  {
    forall q | 0 <= q < hi - lo
      ensures s[k + lo..k + hi][q] == u[lo..hi][q]
    {
      assert s[k + lo + q] == s[k..k + |u|][lo + q];
    }
  }

  /** A match of the id pattern at `j` in `u` is still one, with the same
      marker and id, wherever `u` is copied. */
  lemma {:induction false} MatchCarried(s: string, k: nat, u: string, j: nat)
    requires k + |u| <= |s| && s[k..k + |u|] == u && j <= |u| && IdMatchAt(u, j)
    ensures IdMatchAt(s, k + j) && MarkerLength(s, k + j) == MarkerLength(u, j)
    ensures var m := MarkerLength(u, j);
            s[k + j + m..k + j + m + 11] == u[j + m..j + m + 11]
  {
    var m := MarkerLength(u, j);
    var marker := if m == |WatchMarker| then WatchMarker else ShortMarker;
    assert u[j..][..m] == marker;
    SliceOfCopy(s, k, u, j, j + m);
    assert s[k + j..][..m] == u[j..j + m];
    assert MarkerLength(s, k + j) == m;
    forall q | k + j + m <= q < k + j + m + 11
      ensures s[q] == u[q - k]
    {
      assert s[q] == s[k..k + |u|][q - k];
    }
    SliceOfCopy(s, k, u, j + m, j + m + 11);
  }

  /** The deep-link id of a string whose leftmost match is at `p`, with
      a marker of length `m`. */
  lemma {:induction false} LinkIdAt(s: string, p: nat, m: nat, id: string)
    requires p <= |s| && IdMatchAt(s, p) && MarkerLength(s, p) == m
    requires forall j :: 0 <= j < p ==> !IdMatchAt(s, j)
    requires p + m + 11 <= |s| && s[p + m..p + m + 11] == id
    ensures LinkVideoId(s) == id
  {
    var r := FirstIdMatch(s, 0);
    assert r == Some(p);
  }

  /** Before the marker of an embedded valid link there is no `y`, so no match. */
  lemma {:induction false} NoMatchInPrefix(s: string, k: nat, url: string, b: nat)
    requires k + |url| <= |s| && s[k..k + |url|] == url && b <= |url| && url[..b] in SchemeHostPrefixes
    requires forall j :: 0 <= j < k ==> s[j] != 'y'
    ensures forall j :: 0 <= j < k + b ==> !IdMatchAt(s, j)
  {
    PrefixChars(url[..b]);
    forall j | 0 <= j < k + b
      ensures !IdMatchAt(s, j)
    {
      if k <= j {
        assert s[j] == s[k..k + |url|][j - k] == url[..b][j - k];
      }
      NoMatchWithoutY(s, j);
    }
  }

  /** Whitespace holds no `y`. */
  lemma {:induction false} NoYInSpace(s: string, k: nat)
    requires k <= |s| && AllSpace(s[..k])
    ensures forall j :: 0 <= j < k ==> s[j] != 'y'
  {
    forall j | 0 <= j < k
      ensures s[j] != 'y'
    {
      assert IsSpace(s[..k][j]);
    }
  }

  /** A match of the id pattern right after a scheme-and-host prefix,
      copied after a stretch without `y`, is the copy's leftmost match. */
  lemma {:induction false} CarriedLinkId(s: string, k: nat, url: string, b: nat)
    requires k + |url| <= |s| && s[k..k + |url|] == url
    requires b <= |url| && url[..b] in SchemeHostPrefixes && IdMatchAt(url, b)
    requires forall j :: 0 <= j < k ==> s[j] != 'y'
    ensures var m := MarkerLength(url, b);
            LinkVideoId(s) == url[b + m..b + m + 11]
  {
    NoMatchInPrefix(s, k, url, b);
    LeftmostCarried(s, k, url, b);
  }

  /** A copied match with no match before it gives the copy's deep-link id. */
  lemma {:induction false} LeftmostCarried(s: string, k: nat, u: string, j: nat)
    requires k + |u| <= |s| && s[k..k + |u|] == u && j <= |u| && IdMatchAt(u, j)
    requires forall q :: 0 <= q < k + j ==> !IdMatchAt(s, q)
    ensures var m := MarkerLength(u, j);
            LinkVideoId(s) == u[j + m..j + m + 11]
  {
    var m := MarkerLength(u, j);
    MatchCarried(s, k, u, j);
    LinkIdAt(s, k + j, m, u[j + m..j + m + 11]);
  }

  /** A valid link embedded in a longer string, with no `y` before it,
      gives the longer string the same deep-link id. */
  lemma {:induction false} EmbeddedLinkId(s: string, k: nat, url: string)
    requires IsValidYoutubeUrl(url) && k + |url| <= |s| && s[k..k + |url|] == url
    requires forall j :: 0 <= j < k ==> s[j] != 'y'
    ensures LinkVideoId(s) == LinkVideoId(url)
  {
    ValidUrlLinkId(url);
    CarriedLinkId(s, k, url, SchemeHostLength(url));
  }

  /** Accepted input and its trimmed text have the same deep-link id. */
  lemma {:induction false} InputLinkId(raw: string)
    requires AcceptsInput(raw)
    ensures LinkVideoId(raw) == LinkVideoId(Trim(raw))
  {
    var k := LeadingSpaces(raw);
    TrimStart(raw);
    NoYInSpace(raw, k);
    EmbeddedLinkId(raw, k, Trim(raw));
  }

  /** The deep links are built from the raw input, not the trimmed text
      that was tested; for accepted input the two give the same link. */
  lemma {:induction false} InputLink(raw: string, timestamp: string)
    requires AcceptsInput(raw)
    ensures TimestampLink(raw, timestamp) == TimestampLink(Trim(raw), timestamp)
  {
    InputLinkId(raw);
  }

  /** For accepted input, the link for a clock string opens the trimmed
      URL's video at the second the clock shows. */
  lemma {:induction false} InputClockLink(raw: string, n: nat)
    requires AcceptsInput(raw)
    ensures var url := Trim(raw);
            var b := SchemeHostLength(url);
            var m := MarkerLength(url, b);
            TimestampLink(raw, Clock(n)) == LinkPrefix + url[b + m..b + m + 11] + ("&t=" + NatToString(n) + "s")
  {
    InputLink(raw, Clock(n));
    ClockLink(Trim(raw), n);
  }
}

=== FILE: js_numbers.dfy ===
/** The integer fragment of JavaScript numbers the application touches:
    decimal rendering (`${n}`, `toString`), `padStart`, `Number(string)`
    and `parseInt(string)`. Only integral values are represented; every
    other number the model meets is NaN (see README). */
module JsNumbers {
  import opened JsStrings

  predicate IsDigit(c: char) {
    '0' <= c <= '9'
  }

  /** Value of `c` as a digit of a radix up to 36 (letters count from 10), 36 when it is none. */
  function DigitOf(c: char): (d: nat)
    ensures d <= 36
    ensures d < 10 <==> IsDigit(c)
  {
    if '0' <= c <= '9' then c as int - '0' as int
    else if 'a' <= c <= 'z' then c as int - 'a' as int + 10
    else if 'A' <= c <= 'Z' then c as int - 'A' as int + 10
    else 36
  }

  predicate AllDigitsIn(s: string, radix: nat) {
    forall i :: 0 <= i < |s| ==> DigitOf(s[i]) < radix
  }

  /** `s` is made of decimal digits only. */
  predicate AllDigits(s: string) {
    AllDigitsIn(s, 10)
  }

  /** The number the digit string `s` denotes in `radix`; the empty string denotes 0. */
  function ValueIn(s: string, radix: nat): nat
    requires AllDigitsIn(s, radix)
  {
    if |s| == 0 then 0 else ValueIn(s[..|s| - 1], radix) * radix + DigitOf(s[|s| - 1])
  }

  /** Length of the longest prefix of `s` made of digits of `radix`. */
  function DigitRun(s: string, radix: nat): (k: nat)
    ensures k <= |s|
    ensures AllDigitsIn(s[..k], radix)
    ensures k < |s| ==> DigitOf(s[k]) >= radix
  {
    if |s| > 0 && DigitOf(s[0]) < radix then
      var k := 1 + DigitRun(s[1..], radix);
      assert s[..k] == [s[0]] + s[1..][..k - 1];
      k
    else 0
  }

  function DigitChar(d: nat): (c: char)
    requires d < 10
    ensures IsDigit(c) && DigitOf(c) == d
  {
    ('0' as int + d) as char
  }

  /** Decimal rendering of a natural number, as `String(n)` produces it. */
  function NatToString(n: nat): (r: string)
    ensures |r| >= 1 && AllDigits(r)
    ensures |r| > 1 ==> r[0] != '0'
    ensures n < 10 <==> |r| == 1
  {
    if n < 10 then [DigitChar(n)] else NatToString(n / 10) + [DigitChar(n % 10)]
  }

  /** Decimal rendering of an integer, with a leading `-` when negative. */
  function IntToString(i: int): (r: string)
    ensures i >= 0 ==> r == NatToString(i)
    ensures i < 0 ==> r == "-" + NatToString(-i)
  {
    if i < 0 then "-" + NatToString(-i) else NatToString(i)
  }

  /** `String.prototype.padStart(width, fill)` for a one-character fill. */
  function PadStart(s: string, width: nat, fill: char): (r: string)
    ensures |r| == if |s| >= width then |s| else width
    ensures r[|r| - |s|..] == s
    ensures forall i :: 0 <= i < |r| - |s| ==> r[i] == fill
  {
    if |s| >= width then s else seq(width - |s|, _ => fill) + s
  }

  /** Reading back a rendered natural gives the natural. */
  lemma {:induction false} NatToStringRoundTrip(n: nat)
    ensures ValueIn(NatToString(n), 10) == n
    decreases n
  {
    if n >= 10 {
      NatToStringRoundTrip(n / 10);
      var r := NatToString(n);
      assert r[..|r| - 1] == NatToString(n / 10);
    }
  }

  /** A leading zero does not change the value of a decimal string. */
  lemma {:induction false} LeadingZero(s: string)
    requires AllDigits(s)
    ensures ValueIn("0" + s, 10) == ValueIn(s, 10)
    decreases |s|
  {
    if |s| > 0 {
      LeadingZero(s[..|s| - 1]);
      assert ("0" + s)[..|"0" + s| - 1] == "0" + s[..|s| - 1];
    }
  }

  /** A JavaScript number as far as this model needs: an integer, or NaN. */
  datatype JsNumber = Finite(value: int) | NaN {

    /** `this + other`: NaN absorbs. */
    function Plus(other: JsNumber): JsNumber {
      if Finite? && other.Finite? then Finite(value + other.value) else NaN
    }

    /** `this * k`: NaN absorbs. */
    function Times(k: int): JsNumber {
      if Finite? then Finite(value * k) else NaN
    }
  }

  /** `${n}`: how a number is spliced into a template string. */
  function Render(n: JsNumber): string {
    match n
    case Finite(v) => IntToString(v)
    case NaN => "NaN"
  }

  /** `Number(s)` on a string, for the integral literals: surrounding
      whitespace is ignored, a blank string is 0, an optional sign may
      precede a run of decimal digits, and anything else is NaN. */
  function ToNumber(s: string): (r: JsNumber)
    ensures AllSpace(s) ==> r == Finite(0)
  {
    var t := Trim(s);
    if |t| == 0 then Finite(0)
    else if (t[0] == '-' || t[0] == '+') && |t| > 1 && AllDigits(t[1..]) then
      var v: int := ValueIn(t[1..], 10);
      Finite(if t[0] == '-' then -v else v)
    else if AllDigits(t) then Finite(ValueIn(t, 10))
    else NaN
  }

  /** `Number` reads a plain digit string (possibly empty) as its decimal value. */
  lemma {:induction false} ToNumberOfDigits(s: string)
    requires AllDigits(s)
    ensures ToNumber(s) == Finite(ValueIn(s, 10))
  {
    TrimOfTrimmed(s);
    if |s| > 0 {
      assert !IsDigit('-') && !IsDigit('+');
    }
  }

  /** `parseInt(s)` with no radix: leading whitespace is skipped, an
      optional sign is read, a `0x`/`0X` prefix selects hexadecimal, and
      the longest run of digits that follows is the value; no digits is NaN. */
  function ParseInt(s: string): (r: JsNumber)
    ensures AllSpace(s) ==> r == NaN
  {
    var t := s[LeadingSpaces(s)..];
    var negative := |t| > 0 && t[0] == '-';
    var u := if |t| > 0 && (t[0] == '-' || t[0] == '+') then t[1..] else t;
    var hex := |u| >= 2 && u[0] == '0' && (u[1] == 'x' || u[1] == 'X');
    var radix := if hex then 16 else 10;
    var digits := if hex then u[2..] else u;
    var k := DigitRun(digits, radix);
    if k == 0 then NaN
    else
      var v: int := ValueIn(digits[..k], radix);
      Finite(if negative then -v else v)
  }

  /** `parseInt` reads a non-empty digit string as its decimal value. */
  lemma {:induction false} ParseIntOfDigits(s: string)
    requires |s| >= 1 && AllDigits(s)
    ensures ParseInt(s) == Finite(ValueIn(s, 10))
  {
    assert LeadingSpaces(s) == 0 by { assert !IsSpace(s[0]); }
    assert s[0] != '-' && s[0] != '+';
    if |s| >= 2 {
      assert s[1] != 'x' && s[1] != 'X';
    }
    assert DigitRun(s, 10) == |s|;
    assert s[..|s|] == s;
  }

  /** Euclidean division has one quotient and remainder. */
  lemma {:induction false} DivModUnique(n: nat, d: nat, x: nat, t: nat)
    requires d > 0 && n == d * x + t && t < d
    ensures n / d == x && n % d == t
  {
    var q: nat := n / d;
    assert n == d * q + n % d;
    MulMonotone(d, q + 1, x);
    MulMonotone(d, x + 1, q);
  }

  /** Multiplying by a natural keeps order. */
  lemma {:induction false} MulMonotone(c: nat, a: nat, b: nat)
    ensures a <= b ==> c * a <= c * b
  {
  }
}

=== FILE: js_strings.dfy ===
/** The fragment of JavaScript's string library the application relies on:
    `trim`, `split` on one character, `join` with one character, and the
    character classes `\s` and "line terminator" of ECMAScript regular
    expressions. Strings are sequences of Unicode scalar values; JavaScript's
    `length`, which counts UTF-16 code units, is `Utf16Length`. */
module JsStrings {

  /** ECMAScript LineTerminator: the characters a regular-expression `.` refuses. */
  predicate IsLineTerminator(c: char) {
    c == '\n' || c == '\r' || c == '\U{2028}' || c == '\U{2029}'
  }

  /** ECMAScript WhiteSpace or LineTerminator: what `trim()` removes and `\s` matches. */
  predicate IsSpace(c: char) {
    || IsLineTerminator(c)
    || c == '\t' || c == '\U{B}' || c == '\U{C}' || c == ' '
    || c == '\U{A0}' || c == '\U{FEFF}' || c == '\U{1680}'
    || ('\U{2000}' <= c <= '\U{200A}')
    || c == '\U{202F}' || c == '\U{205F}' || c == '\U{3000}'
  }

  predicate AllSpace(s: string) {
    forall i :: 0 <= i < |s| ==> IsSpace(s[i])
  }

  predicate NoSpace(s: string) {
    forall i :: 0 <= i < |s| ==> !IsSpace(s[i])
  }

  predicate StartsWith(s: string, prefix: string) {
    |prefix| <= |s| && s[..|prefix|] == prefix
  }

  /** `needle` occurs somewhere in `haystack` (JavaScript `includes`). */
  ghost predicate IsInfix(needle: string, haystack: string) {
    exists i :: 0 <= i <= |haystack| && StartsWith(haystack[i..], needle)
  }

  /** Number of occurrences of `c` in `s`. */
  function Count(s: string, c: char): nat {
    if |s| == 0 then 0 else (if s[0] == c then 1 else 0) + Count(s[1..], c)
  }

  /** Code units `c` takes in a JavaScript string: UTF-16 encodes a
      character outside the Basic Multilingual Plane as a surrogate pair. */
  function CodeUnits(c: char): nat {
    if c as int < 0x1_0000 then 1 else 2
  }

  /** JavaScript's `s.length`, which counts UTF-16 code units, not characters. */
  function Utf16Length(s: string): (n: nat)
    ensures |s| <= n <= 2 * |s|
  {
    if |s| == 0 then 0 else CodeUnits(s[0]) + Utf16Length(s[1..])
  }

  /** `length` agrees with the number of characters exactly when every
      character lies in the Basic Multilingual Plane. */
  lemma {:induction false} Utf16LengthIsSize(s: string)
    ensures Utf16Length(s) == |s| <==> forall i :: 0 <= i < |s| ==> CodeUnits(s[i]) == 1
  {
    if |s| > 0 {
      Utf16LengthIsSize(s[1..]);
      assert forall i :: 1 <= i < |s| ==> s[1..][i - 1] == s[i];
    }
  }

  lemma {:induction false} Utf16LengthConcat(a: string, b: string)
    ensures Utf16Length(a + b) == Utf16Length(a) + Utf16Length(b)
  {
    if |a| == 0 {
      assert a + b == b;
    } else {
      assert (a + b)[0] == a[0] && (a + b)[1..] == a[1..] + b;
      Utf16LengthConcat(a[1..], b);
    }
  }

  /** Length of the whitespace run that starts `s`. */
  function LeadingSpaces(s: string): (k: nat)
    ensures k <= |s|
    ensures AllSpace(s[..k])
    ensures k < |s| ==> !IsSpace(s[k])
  {
    if |s| > 0 && IsSpace(s[0]) then
      var k := 1 + LeadingSpaces(s[1..]);
      assert s[..k] == [s[0]] + s[1..][..k - 1];
      k
    else 0
  }

  /** Length of the whitespace run that ends `s`. */
  function TrailingSpaces(s: string): (k: nat)
    ensures k <= |s|
    ensures AllSpace(s[|s| - k..])
    ensures k < |s| ==> !IsSpace(s[|s| - k - 1])
  {
    if |s| > 0 && IsSpace(s[|s| - 1]) then
      var init := s[..|s| - 1];
      var k' := TrailingSpaces(init);
      assert s[|s| - 1 - k'..] == init[|init| - k'..] + [s[|s| - 1]];
      k' + 1
    else 0
  }

  /** `String.prototype.trim`. */
  function Trim(s: string): (r: string)
    ensures |r| <= |s|
    ensures r == [] || (!IsSpace(r[0]) && !IsSpace(r[|r| - 1]))
    ensures r == [] <==> AllSpace(s)
  {
    var t := s[LeadingSpaces(s)..];
    t[..|t| - TrailingSpaces(t)]
  }

  /** What `trim` leaves starts right after the leading whitespace. */
  lemma {:induction false} TrimStart(s: string)
    ensures LeadingSpaces(s) + |Trim(s)| <= |s|
    ensures s[LeadingSpaces(s)..LeadingSpaces(s) + |Trim(s)|] == Trim(s)
  {
    var k := LeadingSpaces(s);
    var t := s[k..];
    var r := t[..|t| - TrailingSpaces(t)];
    assert Trim(s) == r;
    assert s[k..k + |r|] == r;
  }

  /** After what `trim` leaves there is only whitespace. */
  lemma {:induction false} TrimEnd(s: string)
    ensures LeadingSpaces(s) + |Trim(s)| <= |s|
    ensures AllSpace(s[LeadingSpaces(s) + |Trim(s)|..])
  {
    var k := LeadingSpaces(s);
    var t := s[k..];
    assert |Trim(s)| == |t| - TrailingSpaces(t);
    assert s[k + |Trim(s)|..] == t[|t| - TrailingSpaces(t)..];
  }

  /** What `trim` leaves is the input with a whitespace run removed from each end. */
  lemma {:induction false} TrimIsCore(s: string)
    ensures var r := Trim(s);
            exists k :: 0 <= k <= |s| - |r| && AllSpace(s[..k]) && s[k..k + |r|] == r && AllSpace(s[k + |r|..])
  {
    var k := LeadingSpaces(s);
    var r := Trim(s);
    TrimStart(s);
    TrimEnd(s);
    assert 0 <= k <= |s| - |r| && AllSpace(s[..k]) && s[k..k + |r|] == r && AllSpace(s[k + |r|..]);
  }

  /** `String.prototype.split(sep)` for a one-character separator. */
  function Split(s: string, sep: char): (parts: seq<string>)
    ensures |parts| == Count(s, sep) + 1
    ensures forall k :: 0 <= k < |parts| ==> sep !in parts[k]
  {
    if |s| == 0 then [""]
    else if s[0] == sep then [""] + Split(s[1..], sep)
    else
      var rest := Split(s[1..], sep);
      [[s[0]] + rest[0]] + rest[1..]
  }

  /** `Array.prototype.join(sep)` for a one-character separator. */
  function Join(parts: seq<string>, sep: char): string {
    if |parts| == 0 then ""
    else if |parts| == 1 then parts[0]
    else parts[0] + [sep] + Join(parts[1..], sep)
  }

  lemma {:induction false} AllSpaceConcat(a: string, b: string)
    requires AllSpace(a) && AllSpace(b)
    ensures AllSpace(a + b)
  {
    assert forall i :: |a| <= i < |a + b| ==> (a + b)[i] == b[i - |a|];
  }

  /** Leading and trailing whitespace make no difference to `trim`. */
  lemma {:induction false} TrimIgnoresSurroundingSpace(front: string, core: string, back: string)
    requires AllSpace(front) && AllSpace(back)
    ensures Trim(front + core + back) == Trim(core)
  {
    var s := front + core + back;
    var a := LeadingSpaces(core);
    if a == |core| {
      assert core == core[..a];
      AllSpaceConcat(front, core);
      AllSpaceConcat(front + core, back);
    } else {
      var t := core[a..];
      var u := t + back;
      LeadingOfPrefixed(front, core[..a], u);
      assert s == front + core[..a] + u;
      assert s[|front| + a..] == u;
      TrimTail(t, back);
    }
  }

  /** Trailing whitespace makes no difference once the leading run is gone. */
  lemma {:induction false} TrimTail(t: string, back: string)
    requires |t| > 0 && !IsSpace(t[0]) && AllSpace(back)
    ensures var u := t + back; u[..|u| - TrailingSpaces(u)] == t[..|t| - TrailingSpaces(t)]
  {
    var b := TrailingSpaces(t);
    var u := t + back;
    var core := t[..|t| - b];
    var v := t[|t| - b..];
    assert b < |t|;
    assert t == core + v;
    TrailingOfSuffixed(core, v, back);
    assert u == core + v + back;
    assert u[..|u| - (|v| + |back|)] == core;
  }

  lemma {:induction false} LeadingOfPrefixed(w: string, v: string, rest: string)
    requires AllSpace(w) && AllSpace(v)
    requires |rest| > 0 && !IsSpace(rest[0])
    ensures LeadingSpaces(w + v + rest) == |w| + |v|
  {
    var s := w + v + rest;
    AllSpaceConcat(w, v);
    assert s == (w + v) + rest;
    assert forall i :: 0 <= i < |w + v| ==> s[i] == (w + v)[i];
    assert s[|w + v|] == rest[0];
  }

  lemma {:induction false} TrailingOfSuffixed(core: string, v: string, w: string)
    requires AllSpace(w) && AllSpace(v)
    requires |core| > 0 && !IsSpace(core[|core| - 1])
    ensures TrailingSpaces(core + v + w) == |v| + |w|
  {
    var s := core + v + w;
    AllSpaceConcat(v, w);
    assert s == core + (v + w);
    assert forall i :: |core| <= i < |s| ==> s[i] == (v + w)[i - |core|];
    assert s[|core| - 1] == core[|core| - 1];
  }

  /** A string whose ends are not whitespace is its own `trim`. */
  lemma {:induction false} TrimOfTrimmed(s: string)
    requires s == [] || (!IsSpace(s[0]) && !IsSpace(s[|s| - 1]))
    ensures Trim(s) == s
  {
    assert s == [] + s + [];
    TrimIgnoresSurroundingSpace([], s, []);
    if s != [] {
      assert LeadingSpaces(s) == 0;
      assert TrailingSpaces(s) == 0;
    }
  }

  /** Splitting at the first separator. */
  lemma {:induction false} SplitAtFirst(a: string, sep: char, b: string)
    requires sep !in a
    ensures Split(a + [sep] + b, sep) == [a] + Split(b, sep)
    decreases |a|
  {
    if |a| == 0 {
      assert a + [sep] + b == [sep] + b;
      assert ([sep] + b)[1..] == b;
    } else {
      var s := a + [sep] + b;
      assert s[0] == a[0];
      assert s[1..] == a[1..] + [sep] + b;
      SplitAtFirst(a[1..], sep, b);
      assert [a[0]] + a[1..] == a;
    }
  }

  lemma {:induction false} SplitWithoutSeparator(a: string, sep: char)
    requires sep !in a
    ensures Split(a, sep) == [a]
    decreases |a|
  {
    if |a| > 0 {
      SplitWithoutSeparator(a[1..], sep);
      assert [a[0]] + a[1..] == a;
    }
  }

  /** Two separator-free fields around one separator split back into the fields. */
  lemma {:induction false} SplitOfPair(a: string, b: string, sep: char)
    requires sep !in a && sep !in b
    ensures Split(a + [sep] + b, sep) == [a, b]
  {
    SplitAtFirst(a, sep, b);
    SplitWithoutSeparator(b, sep);
  }

  /** Three separator-free fields joined by the separator split back into the fields. */
  lemma {:induction false} SplitOfTriple(a: string, b: string, c: string, sep: char)
    requires sep !in a && sep !in b && sep !in c
    ensures Split(a + [sep] + b + [sep] + c, sep) == [a, b, c]
  {
    assert a + [sep] + b + [sep] + c == a + [sep] + (b + [sep] + c);
    SplitAtFirst(a, sep, b + [sep] + c);
    SplitOfPair(b, c, sep);
  }

  /** `split` undoes `join` when no part holds the separator. */
  lemma {:induction false} SplitJoin(parts: seq<string>, sep: char)
    requires |parts| >= 1
    requires forall k :: 0 <= k < |parts| ==> sep !in parts[k]
    ensures Split(Join(parts, sep), sep) == parts
    decreases |parts|
  {
    if |parts| == 1 {
      SplitWithoutSeparator(parts[0], sep);
    } else {
      SplitJoin(parts[1..], sep);
      SplitAtFirst(parts[0], sep, Join(parts[1..], sep));
      assert [parts[0]] + parts[1..] == parts;
    }
  }

  lemma {:induction false} CountConcat(a: string, b: string, c: char)
    ensures Count(a + b, c) == Count(a, c) + Count(b, c)
    decreases |a|
  {
    if |a| > 0 {
      CountConcat(a[1..], b, c);
      assert (a + b)[1..] == a[1..] + b;
    } else {
      assert a + b == b;
    }
  }

  /** Joining `n` parts adds `n - 1` separators to those the parts already hold. */
  lemma {:induction false} CountJoin(parts: seq<string>, sep: char)
    requires |parts| >= 1
    ensures Count(Join(parts, sep), sep) == CountAll(parts, sep) + |parts| - 1
    decreases |parts|
  {
    if |parts| > 1 {
      CountJoin(parts[1..], sep);
      CountConcat(parts[0] + [sep], Join(parts[1..], sep), sep);
      CountConcat(parts[0], [sep], sep);
      assert Count([sep], sep) == 1;
    }
  }

  /** Occurrences of `c` over all of `parts`. */
  function CountAll(parts: seq<string>, c: char): nat {
    if |parts| == 0 then 0 else Count(parts[0], c) + CountAll(parts[1..], c)
  }

  lemma {:induction false} InfixOfConcat(a: string, x: string, b: string)
    ensures IsInfix(x, a + x + b)
  {
    assert (a + x + b)[|a|..][..|x|] == x;
  }

  /** An infix of an infix is an infix. */
  lemma {:induction false} InfixTransitive(x: string, y: string, z: string)
    requires IsInfix(x, y) && IsInfix(y, z)
    ensures IsInfix(x, z)
  {
    var i :| 0 <= i <= |y| && StartsWith(y[i..], x);
    var j :| 0 <= j <= |z| && StartsWith(z[j..], y);
    forall t | 0 <= t < |x|
      ensures z[j + i + t] == x[t]
    {
      assert x[t] == y[i..][..|x|][t] == y[i + t];
      assert y[i + t] == z[j..][..|y|][i + t] == z[j + i + t];
    }
    assert z[j + i..][..|x|] == x;
  }

  /** `SplitJoin` for any list of parts: the round trip holds whenever the
      list is non-empty and no part holds the separator. */
  lemma {:induction false} JoinSplitsBack(parts: seq<string>, sep: char)
    ensures |parts| >= 1 && (forall k :: 0 <= k < |parts| ==> sep !in parts[k]) ==>
              Split(Join(parts, sep), sep) == parts
  {
    if |parts| >= 1 && forall k :: 0 <= k < |parts| ==> sep !in parts[k] {
      SplitJoin(parts, sep);
    }
  }

  /** Every part of a join occurs in it. */
  lemma {:induction false} JoinContainsParts(parts: seq<string>, sep: char, k: nat)
    requires k < |parts|
    ensures IsInfix(parts[k], Join(parts, sep))
    decreases |parts|
  {
    if |parts| == 1 {
      InfixOfConcat("", parts[0], "");
      assert "" + parts[0] + "" == Join(parts, sep);
    } else if k == 0 {
      InfixOfConcat("", parts[0], [sep] + Join(parts[1..], sep));
      assert "" + parts[0] + ([sep] + Join(parts[1..], sep)) == Join(parts, sep);
    } else {
      JoinContainsParts(parts[1..], sep, k - 1);
      InfixOfConcat(parts[0] + [sep], Join(parts[1..], sep), "");
      assert parts[0] + [sep] + Join(parts[1..], sep) + "" == Join(parts, sep);
      InfixTransitive(parts[k], Join(parts[1..], sep), Join(parts, sep));
    }
  }

  /** The parts written one after the other. */
  function Concat(parts: seq<string>): string
    decreases |parts|
  {
    if |parts| == 0 then "" else parts[0] + Concat(parts[1..])
  }

  /** Every part of a concatenation occurs in it. */
  lemma {:induction false} ConcatContainsParts(parts: seq<string>, k: nat)
    requires k < |parts|
    ensures IsInfix(parts[k], Concat(parts))
    decreases |parts|
  {
    if k == 0 {
      InfixOfConcat("", parts[0], Concat(parts[1..]));
      assert "" + parts[0] + Concat(parts[1..]) == Concat(parts);
    } else {
      ConcatContainsParts(parts[1..], k - 1);
      InfixOfConcat(parts[0], Concat(parts[1..]), "");
      assert parts[0] + Concat(parts[1..]) + "" == Concat(parts);
      InfixTransitive(parts[k], Concat(parts[1..]), Concat(parts));
    }
  }
}

=== FILE: summary.dfy ===
/** `generateSummary` of src/utils/gemini.js. The model call is a
    parameter: its reply, or the exception it threw. The function never
    rejects: a reply is returned trimmed; a failed call gets a fallback
    built from the transcript, unless building it throws itself (fewer
    than three entries), in which case a fixed apology is returned. */
module Summary {
  import opened JsStrings
  import opened JsNumbers
  import opened Domain

  const GenericFailure: string := "Unable to generate summary due to an error. Please try again later."

  const FallbackClosing: string :=
    "Unable to generate a complete AI summary. Please try again later or check the timestamps for key moments in the video."

  /** `transcript.map(item => item.text)`. */
  function Texts(transcript: seq<Entry>): (texts: seq<string>)
    ensures |texts| == |transcript|
    ensures forall k :: 0 <= k < |texts| ==> texts[k] == transcript[k].text
  {
    seq(|transcript|, k requires 0 <= k < |transcript| => transcript[k].text)
  }

  /** The transcript text sent to the model: the entry texts joined by
      single spaces. Texts without spaces of their own are recovered by
      splitting it on spaces. */
  function TranscriptText(transcript: seq<Entry>): (text: string)
    ensures |transcript| == 0 ==> text == ""
    ensures |transcript| >= 1 && (forall k :: 0 <= k < |transcript| ==> ' ' !in transcript[k].text) ==>
              Split(text, ' ') == Texts(transcript)
  {
    JoinSplitsBack(Texts(transcript), ' ');
    Join(Texts(transcript), ' ')
  }

  /** `transcriptText.split(' ').length`. */
  function WordCount(transcript: seq<Entry>): (words: nat)
    ensures words >= 1
  {
    |Split(TranscriptText(transcript), ' ')|
  }

  /** The "word count" counts separators, not words: one per entry plus one
      per space inside the entries' texts (an empty transcript counts 1). */
  lemma {:induction false} WordCountCountsSpaces(transcript: seq<Entry>)
    ensures |transcript| >= 1 ==> WordCount(transcript) == CountAll(Texts(transcript), ' ') + |transcript|
    ensures |transcript| == 0 ==> WordCount(transcript) == 1
  {
    if |transcript| >= 1 {
      CountJoin(Texts(transcript), ' ');
    } else {
      assert TranscriptText(transcript) == "";
      assert Split("", ' ') == [""];
    }
  }

  /** `Math.floor(last.offset / 60000)`: whole minutes up to the start of the last entry. */
  function LengthMinutes(transcript: seq<Entry>): (minutes: nat)
    requires |transcript| >= 1
    ensures minutes * 60000 <= transcript[|transcript| - 1].offset < (minutes + 1) * 60000
  {
    transcript[|transcript| - 1].offset / 60000
  }

  /** The first three texts, space-separated, as the fallback quotes them. */
  function Opening(transcript: seq<Entry>): string
    requires |transcript| >= 3
  {
    Join(Texts(transcript)[..3], ' ')
  }

  /** The last three texts, space-separated, as the fallback quotes them. */
  function Ending(transcript: seq<Entry>): string
    requires |transcript| >= 3
  {
    Join(Texts(transcript)[|transcript| - 3..], ' ')
  }

  /** The fixed text of the fallback template, between the interpolations;
      the template's second line holds six spaces. */
  const LengthIntro: string := "This video is approximately "
  const WordsIntro: string := " minutes long and contains "
  const OpeningIntro: string := " words of transcript. \n      \nThe transcript begins with: \""
  const EndingIntro: string := "...\"\n\nAnd concludes with: \"..."
  const Closing: string := "\"\n\n" + FallbackClosing

  /** The pieces of the fallback summary, in order. */
  function FallbackPieces(transcript: seq<Entry>): (pieces: seq<string>)
    requires |transcript| >= 3
    ensures |pieces| == 9
    ensures pieces[1] == NatToString(LengthMinutes(transcript))
    ensures pieces[3] == NatToString(WordCount(transcript))
    ensures pieces[5] == Opening(transcript) && pieces[7] == Ending(transcript)
  {
    [LengthIntro, NatToString(LengthMinutes(transcript)), WordsIntro,
     NatToString(WordCount(transcript)), OpeningIntro, Opening(transcript),
     EndingIntro, Ending(transcript), Closing]
  }

  /** The deterministic summary built when the model call fails. */
  function FallbackSummary(transcript: seq<Entry>): (summary: string)
    requires |transcript| >= 3
    ensures IsInfix(Opening(transcript), summary) && IsInfix(Ending(transcript), summary)
  {
    var pieces := FallbackPieces(transcript);
    ConcatContainsParts(pieces, 5);
    ConcatContainsParts(pieces, 7);
    Concat(pieces)
  }

  /** `generateSummary(transcript)` given what the model call did. */
  function GenerateSummary(transcript: seq<Entry>, reply: ModelReply): (summary: string)
    ensures reply.Replied? ==> summary == [] || (!IsSpace(summary[0]) && !IsSpace(summary[|summary| - 1]))
    ensures reply.Failed? && |transcript| < 3 ==> summary == GenericFailure
    ensures reply.Failed? && |transcript| >= 3 ==>
              IsInfix(Opening(transcript), summary) && IsInfix(Ending(transcript), summary)
  {
    match reply
    case Replied(text) => Trim(text)
    case Failed(_) =>
      if |transcript| < 3 then GenericFailure else FallbackSummary(transcript)
  }

  /** On success the reply comes back with only its surrounding whitespace removed. */
  lemma {:induction false} ReplyKeptVerbatim(transcript: seq<Entry>, text: string)
    ensures var summary := GenerateSummary(transcript, Replied(text));
            exists k :: 0 <= k <= |text| - |summary| && AllSpace(text[..k])
                        && text[k..k + |summary|] == summary && AllSpace(text[k + |summary|..])
  {
    TrimIsCore(text);
  }

  /** A reply that is already trimmed is returned unchanged. */
  lemma {:induction false} TrimmedReplyUnchanged(transcript: seq<Entry>, text: string)
    requires text == [] || (!IsSpace(text[0]) && !IsSpace(text[|text| - 1]))
    ensures GenerateSummary(transcript, Replied(text)) == text
  {
    TrimOfTrimmed(text);
  }

  /** The fallback reports the length in minutes and the word count, and
      quotes each of the first three and last three texts. */
  lemma {:induction false} FallbackContents(transcript: seq<Entry>, e: Exception)
    requires |transcript| >= 3
    ensures var summary := GenerateSummary(transcript, Failed(e));
            && IsInfix(NatToString(LengthMinutes(transcript)), summary)
            && IsInfix(NatToString(WordCount(transcript)), summary)
            && (forall k :: 0 <= k < 3 ==> IsInfix(transcript[k].text, summary))
            && (forall k :: |transcript| - 3 <= k < |transcript| ==> IsInfix(transcript[k].text, summary))
  {
    var summary := FallbackSummary(transcript);
    assert GenerateSummary(transcript, Failed(e)) == summary;
    FallbackNumbers(transcript);
    var n := |transcript|;
    QuotedTexts(transcript, 0, Opening(transcript), summary);
    assert Texts(transcript)[n - 3..n] == Texts(transcript)[n - 3..];
    QuotedTexts(transcript, n - 3, Ending(transcript), summary);
  }

  /** The fallback quotes the minutes and the word count. */
  lemma {:induction false} FallbackNumbers(transcript: seq<Entry>)
    requires |transcript| >= 3
    ensures IsInfix(NatToString(LengthMinutes(transcript)), FallbackSummary(transcript))
    ensures IsInfix(NatToString(WordCount(transcript)), FallbackSummary(transcript))
  {
    var pieces := FallbackPieces(transcript);
    ConcatContainsParts(pieces, 1);
    ConcatContainsParts(pieces, 3);
  }

  /** Each of three consecutive texts occurs in a summary that quotes them joined. */
  lemma {:induction false} QuotedTexts(transcript: seq<Entry>, lo: nat, quote: string, summary: string)
    requires lo + 3 <= |transcript|
    requires quote == Join(Texts(transcript)[lo..lo + 3], ' ') && IsInfix(quote, summary)
    ensures forall k :: lo <= k < lo + 3 ==> IsInfix(transcript[k].text, summary)
  {
    var texts := Texts(transcript);
    forall k | lo <= k < lo + 3
      ensures IsInfix(transcript[k].text, summary)
    {
      assert texts[lo..lo + 3][k - lo] == transcript[k].text;
      JoinContainsParts(texts[lo..lo + 3], ' ', k - lo);
      InfixTransitive(transcript[k].text, quote, summary);
    }
  }
}

=== FILE: time_format.dfy ===
/** `formatTime` of src/utils/gemini.js: seconds, possibly fractional,
    rendered as `m:ss` below one hour and `h:mm:ss` from one hour on.
    Numbers are exact reals here; IEEE rounding is not modelled. */
module TimeFormat {
  import opened JsStrings
  import opened JsNumbers

  /** `Math.trunc`: rounds toward zero. */
  function Trunc(x: real): (t: int)
    ensures x >= 0.0 ==> t == x.Floor
    ensures x < 0.0 ==> t == -((-x).Floor)
  {
    if x >= 0.0 then x.Floor else -((-x).Floor)
  }

  /** JavaScript `x % m` on numbers: the remainder takes the sign of `x`
      and stays below the divisor in magnitude. */
  function Rem(x: real, m: real): (r: real)
    requires m != 0.0
    ensures m > 0.0 && x >= 0.0 ==> 0.0 <= r < m
    ensures m > 0.0 && x < 0.0 ==> -m < r <= 0.0
  {
    var t := Trunc(x / m);
    if m > 0.0 then
      TruncBounds(x, m, t);
      x - m * (t as real)
    else x - m * (t as real)
  }

  /** `t = trunc(x / m)` for a positive divisor puts `m * t` at most one
      divisor away from `x`, on the side of zero. */
  lemma {:induction false} TruncBounds(x: real, m: real, t: int)
    requires m > 0.0 && t == Trunc(x / m)
    ensures x >= 0.0 ==> 0.0 <= x - m * (t as real) < m
    ensures x < 0.0 ==> -m < x - m * (t as real) <= 0.0
  {
    var tr := t as real;
    QuotientCompare(x, m, 0.0);
    QuotientCompare(x, m, tr);
    if x >= 0.0 {
      QuotientCompare(x, m, tr + 1.0);
      assert m * (tr + 1.0) == m * tr + m;
    } else {
      QuotientCompare(x, m, tr - 1.0);
      assert m * (tr - 1.0) == m * tr - m;
    }
  }

  /** Comparing `x / m` with `c` compares `x` with `m * c` when `m > 0`. */
  lemma {:induction false} QuotientCompare(x: real, m: real, c: real)
    requires m > 0.0
    ensures x / m < c ==> x < m * c
    ensures x / m <= c ==> x <= m * c
    ensures c < x / m ==> m * c < x
    ensures c <= x / m ==> m * c <= x
  {
    var y := x / m;
    RealScale(m, y, c);
    RealScale(m, c, y);
    assert x == m * y;
  }

  lemma {:induction false} RealScale(m: real, a: real, b: real)
    requires m > 0.0
    ensures a < b ==> m * a < m * b
    ensures a <= b ==> m * a <= m * b
  {
  }

  /** Whole hours: the largest `h` with `3600 * h <= seconds`. */
  function Hours(seconds: real): (h: int)
    ensures (h as real) * 3600.0 <= seconds < ((h + 1) as real) * 3600.0
  {
    (seconds / 3600.0).Floor
  }

  /** The minutes within the hour: 0 to 59 for a non-negative argument;
      the truncating `%` makes them 0 to -60 for a negative one. */
  function Minutes(seconds: real): (m: int)
    ensures seconds >= 0.0 ==> 0 <= m < 60
    ensures seconds < 0.0 ==> -60 <= m <= 0
  {
    (Rem(seconds, 3600.0) / 60.0).Floor
  }

  /** The seconds within the minute, with the same ranges as the minutes. */
  function Secs(seconds: real): (s: int)
    ensures seconds >= 0.0 ==> 0 <= s < 60
    ensures seconds < 0.0 ==> -60 <= s <= 0
  {
    Rem(seconds, 60.0).Floor
  }

  /** `x.toString().padStart(2, '0')`: two digits for 0 to 99, and the
      rendering unchanged once it is two characters long. */
  function Pad2(x: int): (r: string)
    ensures 0 <= x < 100 ==> r == TwoDigits(x)
    ensures (x >= 10 || x < 0) ==> r == IntToString(x)
    ensures ':' !in r
  {
    NoColonInInt(x);
    PadStart(IntToString(x), 2, '0')
  }

  /** A rendered integer holds no colon. */
  lemma {:induction false} NoColonInInt(x: int)
    ensures ':' !in IntToString(x)
  {
    var d := NatToString(if x < 0 then -x else x);
    forall k | 0 <= k < |d|
      ensures d[k] != ':'
    {
      assert DigitOf(d[k]) < 10;
    }
  }

  /** `formatTime(seconds)`. */
  function FormatTime(seconds: real): string {
    Layout(Hours(seconds), Minutes(seconds), Secs(seconds))
  }

  /** How `formatTime` lays out its three fields: the hours only when
      positive. Split on `:`, the result gives back its fields, which is
      how the timestamps are read again. */
  function Layout(hours: int, minutes: int, secs: int): (r: string)
    ensures hours > 0 ==> Split(r, ':') == [IntToString(hours), Pad2(minutes), Pad2(secs)]
    ensures hours <= 0 ==> Split(r, ':') == [IntToString(minutes), Pad2(secs)]
  {
    NoColonInInt(hours);
    NoColonInInt(minutes);
    if hours > 0 then
      SplitOfTriple(IntToString(hours), Pad2(minutes), Pad2(secs), ':');
      IntToString(hours) + ":" + Pad2(minutes) + ":" + Pad2(secs)
    else
      SplitOfPair(IntToString(minutes), Pad2(secs), ':');
      IntToString(minutes) + ":" + Pad2(secs)
  }

  /** The clock for `n` whole seconds, stated on integers: `h:mm:ss` from
      one hour on and `m:ss` below it, hours unpadded, minutes and seconds
      as exactly two decimal digits. */
  function Clock(n: nat): string {
    if n >= 3600 then
      NatToString(n / 3600) + ":" + TwoDigits((n % 3600) / 60) + ":" + TwoDigits(n % 60)
    else
      NatToString(n / 60) + ":" + TwoDigits(n % 60)
  }

  /** Exactly two decimal digits denoting `n`. */
  function TwoDigits(n: nat): (r: string)
    requires n < 100
    ensures |r| == 2 && AllDigits(r) && ValueIn(r, 10) == n
  {
    NatToStringRoundTrip(n);
    if n < 10 then
      LeadingZero(NatToString(n));
      "0" + NatToString(n)
    else NatToString(n)
  }

  lemma {:induction false} FloorOfShift(k: int, f: real)
    requires 0.0 <= f < 1.0
    ensures (k as real + f).Floor == k
  {
  }

  /** Dividing a non-negative real by a positive integer and flooring
      equals flooring first and dividing as integers. */
  lemma {:induction false} FloorDiv(x: real, b: int)
    requires x >= 0.0 && b > 0
    ensures (x / b as real).Floor == x.Floor / b
  {
    var n := x.Floor;
    var q := n / b;
    var y := x / b as real;
    var bb := b as real;
    assert y * bb == x;
    assert q * b <= n < (q + 1) * b;
    assert (q as real) * bb <= x;
    assert x < ((q + 1) as real) * bb;
    assert q as real <= y;
    assert y < (q + 1) as real;
  }

  /** For a non-negative dividend, `x % b` is the integer remainder of
      `floor(x)` plus the fractional part of `x`. */
  lemma {:induction false} RemOfNonNegative(x: real, b: int)
    requires x >= 0.0 && b > 0
    ensures Rem(x, b as real) == ((x.Floor % b) as real) + (x - x.Floor as real)
    ensures Rem(x, b as real).Floor == x.Floor % b
  {
    FloorDiv(x, b);
    var n := x.Floor;
    assert Trunc(x / b as real) == n / b;
    assert n == b * (n / b) + n % b;
    FloorOfShift(n % b, x - n as real);
  }

  /** The three fields `formatTime` computes, for a non-negative argument,
      depend only on its whole seconds. */
  lemma {:induction false} FieldsOfNonNegative(x: real)
    requires x >= 0.0
    ensures Hours(x) == x.Floor / 3600
    ensures Minutes(x) == (x.Floor % 3600) / 60
    ensures Secs(x) == x.Floor % 60
  {
    FloorDiv(x, 3600);
    RemOfNonNegative(x, 3600);
    var r := Rem(x, 3600.0);
    assert r >= 0.0;
    FloorDiv(r, 60);
    RemOfNonNegative(x, 60);
  }

  /** `formatTime` truncates: a non-negative fractional argument formats like its floor. */
  lemma {:induction false} FormatTimeTruncates(x: real)
    requires x >= 0.0
    ensures FormatTime(x) == FormatTime(x.Floor as real)
  {
    FieldsOfNonNegative(x);
    FieldsOfNonNegative(x.Floor as real);
    assert (x.Floor as real).Floor == x.Floor;
  }

  /** The ranges of the clock fields of `n` whole seconds. */
  lemma {:induction false} ClockFieldRanges(n: nat)
    ensures n % 60 < 60 && (n % 3600) / 60 < 60
    ensures n >= 3600 <==> n / 3600 > 0
    ensures n < 3600 ==> (n % 3600) / 60 == n / 60
  {
  }

  /** With the hours present, `formatTime` pads minutes and seconds to two digits. */
  lemma {:induction false} LongLayout(h: nat, m: nat, s: nat)
    requires h > 0 && m < 60 && s < 60
    ensures Layout(h, m, s) == NatToString(h) + ":" + TwoDigits(m) + ":" + TwoDigits(s)
  {
  }

  /** Without hours, only the seconds are padded. */
  lemma {:induction false} ShortLayout(m: nat, s: nat)
    requires s < 60
    ensures Layout(0, m, s) == NatToString(m) + ":" + TwoDigits(s)
  {
  }

  /** The fields of `n` whole seconds lay out as its clock. */
  lemma {:induction false} LayoutOfSeconds(n: nat)
    ensures Layout(n / 3600, (n % 3600) / 60, n % 60) == Clock(n)
  {
    ClockFieldRanges(n);
    if n >= 3600 {
      LongLayout(n / 3600, (n % 3600) / 60, n % 60);
    } else {
      ShortLayout(n / 60, n % 60);
    }
  }

  /** Whole seconds format as `h:mm:ss` from one hour on and as `m:ss` below it. */
  lemma {:induction false} FormatTimeOfSeconds(n: nat)
    ensures FormatTime(n as real) == Clock(n)
  {
    FieldsOfNonNegative(n as real);
    assert (n as real).Floor == n;
    LayoutOfSeconds(n);
  }

  /** For any non-negative argument, `formatTime` shows the clock of its whole seconds. */
  lemma {:induction false} FormatTimeIsClock(x: real)
    requires x >= 0.0
    ensures FormatTime(x) == Clock(x.Floor)
  {
    FormatTimeTruncates(x);
    FormatTimeOfSeconds(x.Floor);
  }

  /** `FormatTimeIsClock` with the whole seconds already known. */
  lemma {:induction false} FormatTimeOfWhole(x: real, n: nat)
    requires x >= 0.0 && x.Floor == n
    ensures FormatTime(x) == Clock(n)
  {
    FormatTimeIsClock(x);
  }

  lemma SmallNumerals()
    ensures NatToString(0) == "0" && NatToString(1) == "1"
    ensures NatToString(15) == "15" && NatToString(38) == "38"
  {
    assert DigitChar(0) == '0' && DigitChar(1) == '1';
    assert DigitChar(3) == '3' && DigitChar(5) == '5' && DigitChar(8) == '8';
  }

  /** 75 seconds on the reference clock read `1:15`. */
  lemma MinutesExample()
    ensures Clock(75) == "1:15"
  {
    SmallNumerals();
    assert 75 / 60 == 1 && 75 % 60 == 15;
    assert TwoDigits(15) == "15";
  }

  /** `formatTime(75)` is `1:15`. */
  lemma MinutesFormatted()
    ensures FormatTime(75.0) == "1:15"
  {
    MinutesExample();
    FormatTimeOfSeconds(75);
  }

  /** 3661 seconds on the reference clock read `1:01:01`: hours unpadded, the rest padded. */
  lemma HoursExample()
    ensures Clock(3661) == "1:01:01"
  {
    SmallNumerals();
    assert 3661 / 3600 == 1 && (3661 % 3600) / 60 == 1 && 3661 % 60 == 1;
    assert TwoDigits(1) == "01";
  }

  /** `formatTime(3661)` is `1:01:01`. */
  lemma HoursFormatted()
    ensures FormatTime(3661.0) == "1:01:01"
  {
    HoursExample();
    FormatTimeOfSeconds(3661);
  }
}

=== FILE: timestamps.dfy ===
/** `generateTimestamps` of src/utils/gemini.js as a pure function of the
    transcript and the model's reply. The reply's raw text goes through a
    cascade of parse strategies; a list whose times are all `"0:00"` or
    empty gets its times spread evenly over the video; an empty result is
    replaced by a fixed six-point default set. `JSON.parse` and the regular
    expression that cuts a JSON array out of the text are parameters
    (`parseJson`, `arraySpan`). */
module Timestamps {
  import opened JsStrings
  import opened JsNumbers
  import opened TimeFormat
  import opened Domain

  // ---------------------------------------------------------------------------
  // The prompt's transcript listing (one `m:ss: text` line per entry)
  // ---------------------------------------------------------------------------

  /** `offset / 1000`: an offset in milliseconds as (fractional) seconds. */
  function MillisAsSeconds(millis: nat): real {
    millis as real / 1000.0
  }

  /** The `formatTime(offset / 1000): text` line of one entry. */
  function ListingLine(e: Entry): string {
    FormatTime(MillisAsSeconds(e.offset)) + ": " + e.text
  }

  /** The transcript as the prompt shows it: one line per entry. */
  function Listing(transcript: seq<Entry>): string {
    Join(seq(|transcript|, i requires 0 <= i < |transcript| => ListingLine(transcript[i])), '\n')
  }

  /** When no caption text holds a newline, the listing has one line per
      entry, and each line starts with the clock of the entry's whole seconds. */
  lemma {:induction false} ListingLines(transcript: seq<Entry>)
    requires |transcript| >= 1
    requires forall i :: 0 <= i < |transcript| ==> '\n' !in transcript[i].text
    ensures var lines := Split(Listing(transcript), '\n');
      && |lines| == |transcript|
      && forall i :: 0 <= i < |lines| ==>
           lines[i] == Clock(transcript[i].offset / 1000) + ": " + transcript[i].text
  {
    var lines := seq(|transcript|, i requires 0 <= i < |transcript| => ListingLine(transcript[i]));
    forall i | 0 <= i < |lines|
      ensures '\n' !in lines[i]
      ensures lines[i] == Clock(transcript[i].offset / 1000) + ": " + transcript[i].text
    {
      LineOfEntry(transcript[i]);
      ClockHasNoNewline(transcript[i].offset / 1000);
      assert '\n' !in ": ";
    }
    SplitJoin(lines, '\n');
  }

  lemma {:induction false} LineOfEntry(e: Entry)
    ensures ListingLine(e) == Clock(e.offset / 1000) + ": " + e.text
  {
    MillisToSeconds(e.offset);
    FormatTimeOfWhole(MillisAsSeconds(e.offset), e.offset / 1000);
  }

  lemma {:induction false} MillisToSeconds(millis: nat)
    ensures MillisAsSeconds(millis) >= 0.0 && MillisAsSeconds(millis).Floor == millis / 1000
  {
    WholeSeconds(millis, 1000);
  }

  /** Flooring an exact quotient of naturals is integer division. */
  lemma {:induction false} WholeSeconds(a: nat, b: nat)
    requires b > 0
    ensures (a as real / b as real).Floor == a / b
  {
    FloorDiv(a as real, b);
    assert (a as real).Floor == a;
  }

  lemma {:induction false} ClockHasNoNewline(n: nat)
    ensures '\n' !in Clock(n)
  {
    NoNewlineInDigits(NatToString(n / 3600));
    NoNewlineInDigits(NatToString(n / 60));
    NoNewlineInDigits(TwoDigits((n % 3600) / 60));
    NoNewlineInDigits(TwoDigits(n % 60));
  }

  lemma {:induction false} NoNewlineInDigits(digits: string)
    requires AllDigits(digits)
    ensures '\n' !in digits
  {
    assert forall i :: 0 <= i < |digits| ==> DigitOf(digits[i]) < 10;
  }

  // ---------------------------------------------------------------------------
  // Strategy three: the regular expression /"key"\s*:\s*"([^"]*)"/g
  // ---------------------------------------------------------------------------

  /** First position at or after `i` that is not whitespace. */
  function SkipSpaces(s: string, i: nat): (j: nat)
    requires i <= |s|
    ensures i <= j <= |s|
    ensures forall k :: i <= k < j ==> IsSpace(s[k])
    ensures j < |s| ==> !IsSpace(s[j])
    decreases |s| - i
  {
    if i < |s| && IsSpace(s[i]) then SkipSpaces(s, i + 1) else i
  }

  /** First `"` at or after `i`, or `|s|` when there is none. */
  function QuoteFrom(s: string, i: nat): (j: nat)
    requires i <= |s|
    ensures i <= j <= |s|
    ensures forall k :: i <= k < j ==> s[k] != '"'
    ensures j < |s| ==> s[j] == '"'
    decreases |s| - i
  {
    if i < |s| && s[i] != '"' then QuoteFrom(s, i + 1) else i
  }

  /** The match of `"key"\s*:\s*"([^"]*)"` that starts exactly at `i`, as
      the position just after it and the captured value. */
  function FieldAt(text: string, i: nat, key: string): (r: Option<(nat, string)>)
    requires i <= |text|
    ensures r.Some? ==> i < r.value.0 <= |text| && '"' !in r.value.1
  {
    var open := "\"" + key + "\"";
    if !StartsWith(text[i..], open) then None
    else
      var j := SkipSpaces(text, i + |open|);
      if j == |text| || text[j] != ':' then None
      else
        var k := SkipSpaces(text, j + 1);
        if k == |text| || text[k] != '"' then None
        else
          var close := QuoteFrom(text, k + 1);
          if close == |text| then None
          else Some((close + 1, text[k + 1..close]))
  }

  /** `\s*` over a run of whitespace `w` that is followed by something
      other than whitespace consumes exactly `w`. */
  lemma {:induction false} SkipOver(text: string, i: nat, w: string)
    requires i + |w| <= |text| && text[i..i + |w|] == w && AllSpace(w)
    requires i + |w| < |text| ==> !IsSpace(text[i + |w|])
    ensures SkipSpaces(text, i) == i + |w|
    decreases |w|
  {
    if |w| > 0 {
      assert text[i] == w[0];
      assert text[i + 1..i + 1 + |w[1..]|] == w[1..];
      SkipOver(text, i + 1, w[1..]);
    }
  }

  /** FieldAt at the start of `text` once its pieces are located: the key
      in quotes, the whitespace skipped up to `:`, then up to the opening
      quote of the value, and the closing quote. */
  lemma {:induction false} FieldAtSteps(text: string, key: string, colon: nat, open: nat, close: nat,
                                        value: string)
    requires StartsWith(text, "\"" + key + "\"")
    requires colon < |text| && SkipSpaces(text, |key| + 2) == colon && text[colon] == ':'
    requires open < |text| && SkipSpaces(text, colon + 1) == open && text[open] == '"'
    requires close < |text| && QuoteFrom(text, open + 1) == close && text[open + 1..close] == value
    ensures FieldAt(text, 0, key) == Some((close + 1, value))
  {
    assert text[0..] == text;
  }

  /** Everything up to the opening quote of the value: `"key"`, whitespace,
      `:`, whitespace. */
  lemma {:induction false} FieldHead(key: string, w1: string, w2: string, tail: string)
    requires AllSpace(w1) && AllSpace(w2) && |tail| > 0 && tail[0] == '"'
    ensures var text := "\"" + key + "\"" + w1 + ":" + w2 + tail;
            var colon := |key| + 2 + |w1|;
            && StartsWith(text, "\"" + key + "\"")
            && SkipSpaces(text, |key| + 2) == colon && text[colon] == ':'
            && SkipSpaces(text, colon + 1) == colon + 1 + |w2| && text[colon + 1 + |w2|] == '"'
  {
    var text := "\"" + key + "\"" + w1 + ":" + w2 + tail;
    var a := |key| + 2;
    var b := a + |w1|;
    var c := b + 1 + |w2|;
    assert text[..a] == "\"" + key + "\"";
    assert text[a..b] == w1;
    assert text[b] == ':';
    SkipOver(text, a, w1);
    assert text[b + 1..c] == w2;
    assert text[c] == tail[0];
    SkipOver(text, b + 1, w2);
  }

  /** The quoted value: its closing quote is the first `"` after the
      opening one. */
  lemma {:induction false} FieldTail(head: string, v: string, rest: string)
    requires '"' !in v
    ensures var text := head + ("\"" + v + "\"" + rest);
            var c := |head|;
            && text[c] == '"'
            && QuoteFrom(text, c + 1) == c + 1 + |v|
            && text[c + 1..c + 1 + |v|] == v
  {
    var text := head + ("\"" + v + "\"" + rest);
    var c := |head|;
    forall j | c + 1 <= j < c + 1 + |v|
      ensures text[j] != '"'
    {
      assert text[j] == v[j - c - 1];
    }
    assert text[c + 1 + |v|] == '"';
    assert text[c + 1..c + 1 + |v|] == v;
  }

  /** A field written as `"key"`, optional whitespace, `:`, optional
      whitespace, `"value"` is recognised at its opening quote with its
      value, and the scan resumes right after its closing quote. */
  lemma {:induction false} FieldAtOfField(key: string, w1: string, w2: string, v: string, rest: string)
    requires AllSpace(w1) && AllSpace(w2) && '"' !in v
    ensures var text := "\"" + key + "\"" + w1 + ":" + w2 + ("\"" + v + "\"" + rest);
            FieldAt(text, 0, key) == Some((|key| + |w1| + |w2| + 5 + |v|, v))
  {
    var tail := "\"" + v + "\"" + rest;
    var head := "\"" + key + "\"" + w1 + ":" + w2;
    var text := head + tail;
    FieldHead(key, w1, w2, tail);
    FieldTail(head, v, rest);
    FieldAtSteps(text, key, |key| + 2 + |w1|, |head|, |key| + |w1| + |w2| + 4 + |v|, v);
  }

  /** Conversely, a match at `i` is exactly such a field: the matched text
      is `"key"`, whitespace, `:`, whitespace and the quoted value. */
  lemma {:induction false} FieldOfFieldAt(text: string, i: nat, key: string)
    requires i <= |text| && FieldAt(text, i, key).Some?
    ensures var (e, v) := FieldAt(text, i, key).value;
            exists w1, w2 :: AllSpace(w1) && AllSpace(w2) &&
              text[i..e] == "\"" + key + "\"" + w1 + ":" + w2 + ("\"" + v + "\"")
  {
    var open := "\"" + key + "\"";
    var j := SkipSpaces(text, i + |open|);
    var k := SkipSpaces(text, j + 1);
    var close := QuoteFrom(text, k + 1);
    var w1, w2 := text[i + |open|..j], text[j + 1..k];
    assert AllSpace(w1) && AllSpace(w2);
    FieldPieces(text, i, j, k, close, open, w1, w2, text[k + 1..close]);
  }

  /** The pieces the scan of `FieldAt` passes over, put back together. */
  lemma {:induction false} FieldPieces(text: string, i: nat, j: nat, k: nat, c: nat,
                                       open: string, w1: string, w2: string, v: string)
    requires i + |open| <= j < k < c < |text|
    requires text[i..i + |open|] == open && w1 == text[i + |open|..j] && text[j] == ':'
    requires w2 == text[j + 1..k] && text[k] == '"' && v == text[k + 1..c] && text[c] == '"'
    ensures text[i..c + 1] == open + w1 + ":" + w2 + ("\"" + v + "\"")
  {
    assert text[i..j] == open + w1 by {
      SliceParts(text, i, i + |open|, j);
    }
    assert text[i..k] == open + w1 + ":" + w2 by {
      SliceParts(text, i, j, k);
      SliceParts(text, j, j + 1, k);
      assert text[j..j + 1] == ":";
    }
    assert text[k..c + 1] == "\"" + v + "\"" by {
      SliceParts(text, k, k + 1, c + 1);
      SliceParts(text, k + 1, c, c + 1);
      assert text[k..k + 1] == "\"" && text[c..c + 1] == "\"";
    }
    SliceParts(text, i, k, c + 1);
  }

  /** A slice cut at an inner point is the concatenation of the two pieces. */
  lemma {:induction false} SliceParts(s: string, a: nat, b: nat, c: nat)
    requires a <= b <= c <= |s|
    ensures s[a..c] == s[a..b] + s[b..c]
  {
  }

  /** The shape the prompt itself shows, `"time": "0:00"`, is read,
      whatever follows it. */
  lemma {:induction false} TimeFieldExample(rest: string)
    ensures FieldAt("\"time\": \"0:00\"" + rest, 0, "time") == Some((14, "0:00"))
  {
    FieldAtOfField("time", "", " ", "0:00", rest);
    assert "\"" + "time" + "\"" + "" + ":" + " " + ("\"" + "0:00" + "\"" + rest) == "\"time\": \"0:00\"" + rest;
  }

  /** The captured values of every match of `"key"\s*:\s*"([^"]*)"` from
      position `from` on, scanning left to right as a global `match` does:
      after a match the search resumes where it ended. */
  function FieldValues(text: string, key: string, from: nat): (r: seq<string>)
    requires from <= |text|
    ensures forall v :: v in r ==> '"' !in v
    decreases |text| - from
  {
    if from == |text| then []
    else
      match FieldAt(text, from, key)
      case Some((next, value)) => [value] + FieldValues(text, key, next)
      case None => FieldValues(text, key, from + 1)
  }

  /** The global match collects nothing exactly when no position from
      `from` on starts a match. */
  lemma {:induction false} FieldValuesEmpty(text: string, key: string, from: nat)
    requires from <= |text|
    ensures FieldValues(text, key, from) == [] <==>
            forall j :: from <= j < |text| ==> FieldAt(text, j, key).None?
    decreases |text| - from
  {
    if from < |text| && FieldAt(text, from, key).None? {
      FieldValuesEmpty(text, key, from + 1);
    }
  }

  /** Positions that start no match are passed over. */
  lemma {:induction false} FieldValuesSkip(text: string, key: string, from: nat, j: nat)
    requires from <= j <= |text|
    requires forall q :: from <= q < j ==> FieldAt(text, q, key).None?
    ensures FieldValues(text, key, from) == FieldValues(text, key, j)
    decreases j - from
  {
    if from < j {
      FieldValuesSkip(text, key, from + 1, j);
    }
  }

  /** The first value collected is the leftmost match's, and collection
      resumes right after that match. */
  lemma {:induction false} FieldValuesLeftmost(text: string, key: string, from: nat, j: nat)
    requires from <= j < |text| && FieldAt(text, j, key).Some?
    requires forall q :: from <= q < j ==> FieldAt(text, q, key).None?
    ensures FieldValues(text, key, from)
            == [FieldAt(text, j, key).value.1] + FieldValues(text, key, FieldAt(text, j, key).value.0)
  {
    FieldValuesSkip(text, key, from, j);
  }

  /** Positional pairing: the i-th `"time"` value with the i-th `"title"`
      value, or nothing when the two counts differ. */
  function PairFields(text: string): (r: seq<Segment>)
    ensures var times := FieldValues(text, "time", 0);
      var titles := FieldValues(text, "title", 0);
      && (|times| == |titles| ==> |r| == |times| && forall i :: 0 <= i < |r| ==> r[i] == Segment(times[i], titles[i]))
      && (|times| != |titles| ==> r == [])
  {
    var times := FieldValues(text, "time", 0);
    var titles := FieldValues(text, "title", 0);
    if |times| > 0 && |titles| > 0 && |times| == |titles| then
      seq(|times|, i requires 0 <= i < |times| => Segment(times[i], titles[i]))
    else []
  }

  // ---------------------------------------------------------------------------
  // The cascade
  // ---------------------------------------------------------------------------

  /** Strategy two: parse the first array-shaped span of the text, if any. */
  function SpanList(text: string, parseJson: string -> Option<seq<Segment>>,
                    arraySpan: string -> Option<string>): (r: seq<Segment>)
    ensures arraySpan(text).None? ==> r == []
    ensures r != [] ==> arraySpan(text).Some? && parseJson(arraySpan(text).value) == Some(r)
  {
    match arraySpan(text)
    case None => []
    case Some(span) =>
      match parseJson(span)
      case Some(list) => list
      case None => []
  }

  /** The three parse strategies in order. The later two run only when the
      whole text is not JSON, and the positional one only when the span
      strategy produced nothing. */
  function ParseCascade(text: string, parseJson: string -> Option<seq<Segment>>,
                        arraySpan: string -> Option<string>): (r: seq<Segment>)
    ensures parseJson(text).Some? ==> r == parseJson(text).value
    ensures parseJson(text).None? && SpanList(text, parseJson, arraySpan) != [] ==>
              r == SpanList(text, parseJson, arraySpan)
    ensures parseJson(text).None? && SpanList(text, parseJson, arraySpan) == [] ==>
              r == PairFields(text)
  {
    match parseJson(text)
    case Some(list) => list
    case None =>
      var fromSpan := SpanList(text, parseJson, arraySpan);
      if |fromSpan| == 0 then PairFields(text) else fromSpan
  }

  // ---------------------------------------------------------------------------
  // Degenerate-output repair and the default set
  // ---------------------------------------------------------------------------

  /** The `allZeroTimestamps` scan: front to back, stopping at the first
      time that is neither `"0:00"` nor empty. It holds exactly when every
      time is one of the two. */
  predicate AllBlankTimes(segments: seq<Segment>): (all: bool)
    ensures all <==>
              forall i :: 0 <= i < |segments| ==> segments[i].time == "0:00" || segments[i].time == ""
    decreases |segments|
  {
    if |segments| == 0 then true
    else if segments[0].time != "0:00" && segments[0].time != "" then false
    else AllBlankTimes(segments[1..])
  }

  /** Whole seconds of slot `i` of `n`: floor(D * (i + 1) / (n + 1)) for a
      video of D = lastOffset / 1000 seconds (nested floors of positive
      divisors compose, so this is one floor of the exact quotient). */
  function SlotSeconds(lastOffset: nat, i: nat, n: nat): nat {
    (lastOffset * (i + 1)) / 1000 / (n + 1)
  }

  /** The times of all segments spread evenly over the video, titles kept. */
  function Redistribute(segments: seq<Segment>, lastOffset: nat): (r: seq<Segment>)
    ensures |r| == |segments|
    ensures forall i :: 0 <= i < |r| ==>
              && r[i].title == segments[i].title
              && r[i].time == Clock(SlotSeconds(lastOffset, i, |segments|))
  {
    seq(|segments|, i requires 0 <= i < |segments| =>
      segments[i].(time := SlotTime(lastOffset, i, |segments|)))
  }

  /** `formatTime(Math.floor(segmentSize * (i + 1)))` with
      `segmentSize = videoDuration / (n + 1)`. */
  function SlotTime(lastOffset: nat, i: nat, n: nat): (t: string)
    ensures t == Clock(SlotSeconds(lastOffset, i, n))
  {
    var videoDuration := lastOffset as real / 1000.0;
    var segmentSize := videoDuration / (n + 1) as real;
    var timePosition := (segmentSize * (i + 1) as real).Floor;
    assert timePosition == SlotSeconds(lastOffset, i, n) by {
      SlotPosition(lastOffset, i, n);
    }
    FormatTimeOfSeconds(timePosition);
    FormatTime(timePosition as real)
  }

  /** The real slot position of the source floors to `SlotSeconds`. */
  lemma {:induction false} SlotPosition(lastOffset: nat, i: nat, n: nat)
    ensures ((lastOffset as real / 1000.0 / (n + 1) as real) * (i + 1) as real).Floor
            == SlotSeconds(lastOffset, i, n)
  {
    var a := lastOffset * (i + 1);
    var y := a as real / 1000.0;
    var x := (lastOffset as real / 1000.0 / (n + 1) as real) * (i + 1) as real;
    assert x == y / (n + 1) as real;
    FloorDiv(y, n + 1);
    WholeSeconds(a, 1000);
  }

  /** Slots never go backwards, and each lies strictly before the end of a
      video that has any length. */
  lemma {:induction false} SlotsOrdered(lastOffset: nat, i: nat, j: nat, n: nat)
    requires i <= j < n
    ensures SlotSeconds(lastOffset, i, n) <= SlotSeconds(lastOffset, j, n)
    ensures lastOffset > 0 ==> SlotSeconds(lastOffset, j, n) * 1000 < lastOffset
  {
    var ai := lastOffset * (i + 1);
    var aj := lastOffset * (j + 1);
    MulMonotone(lastOffset, i + 1, j + 1);
    MonotoneDiv(ai, aj, 1000);
    MonotoneDiv(ai / 1000, aj / 1000, n + 1);
    if lastOffset > 0 {
      var q := SlotSeconds(lastOffset, j, n);
      DivBound(aj / 1000, n + 1);
      DivBound(aj, 1000);
      assert q * (n + 1) <= aj / 1000;
      assert (aj / 1000) * 1000 <= aj;
      MulMonotone(lastOffset, j + 1, n);
      assert aj <= lastOffset * n;
      MulMonotone(1000, q * (n + 1), aj / 1000);
      assert 1000 * (q * (n + 1)) <= lastOffset * n;
      CancelFactor(q * 1000, lastOffset, n + 1);
    }
  }

  lemma {:induction false} DivBound(a: nat, d: nat)
    requires d > 0
    ensures (a / d) * d <= a
  {
  }

  /** From q * (n + 1) <= L * n with L > 0 follows q < L. */
  lemma {:induction false} CancelFactor(q: nat, l: nat, m: nat)
    requires m >= 1 && l > 0
    requires 1000 * ((q / 1000) * m) <= l * (m - 1) && q % 1000 == 0
    ensures q < l
  {
    var p := q / 1000;
    assert q == 1000 * p;
    assert q * m <= l * (m - 1);
  }

  lemma {:induction false} MonotoneDiv(a: nat, b: nat, d: nat)
    requires a <= b && d > 0
    ensures a / d <= b / d
  {
    var qa: nat, qb: nat := a / d, b / d;
    assert qa * d <= a && b < (qb + 1) * d;
    MulMonotone(d, qb + 1, qa);
  }

  /** Hundredths of the video at which the six default points sit. */
  const DefaultPercents: seq<nat> := [0, 20, 40, 60, 80, 95]

  /** The same points as the multipliers the source writes. */
  const DefaultFractions: seq<real> := [0.0, 0.2, 0.4, 0.6, 0.8, 0.95]

  const DefaultTitles: seq<string> :=
    ["Introduction", "First Key Point", "Second Key Point", "Third Key Point", "Fourth Key Point", "Conclusion"]

  /** Whole seconds of default point `k`: floor(D * DefaultPercents[k] / 100). */
  function DefaultSeconds(lastOffset: nat, k: nat): nat
    requires k < 6
  {
    (lastOffset * DefaultPercents[k]) / 100000
  }

  /** The fixed six-point set used when no strategy produced anything: the
      first time is the literal `"0:00"`, the others `formatTime(videoDuration * f)`. */
  function DefaultSegments(lastOffset: nat): (r: seq<Segment>)
    ensures |r| == 6
    ensures r[0].time == "0:00"
    ensures forall k :: 0 <= k < 6 ==>
              r[k].title == DefaultTitles[k] && r[k].time == Clock(DefaultSeconds(lastOffset, k))
  {
    assert Clock(DefaultSeconds(lastOffset, 0)) == "0:00" by {
      assert DefaultSeconds(lastOffset, 0) == 0;
    }
    seq(6, k requires 0 <= k < 6 =>
      Segment(if k == 0 then "0:00" else DefaultTime(lastOffset, k), DefaultTitles[k]))
  }

  /** `formatTime(videoDuration * f)` for the `k`-th multiplier `f`. */
  function DefaultTime(lastOffset: nat, k: nat): (t: string)
    requires k < 6
    ensures t == Clock(DefaultSeconds(lastOffset, k))
  {
    var videoDuration := lastOffset as real / 1000.0;
    var position := videoDuration * DefaultFractions[k];
    assert position.Floor == DefaultSeconds(lastOffset, k) && position >= 0.0 by {
      DefaultPosition(lastOffset, k);
    }
    FormatTimeIsClock(position);
    FormatTime(position)
  }

  /** The source's real multiplication floors to `DefaultSeconds`. */
  lemma {:induction false} DefaultPosition(lastOffset: nat, k: nat)
    requires k < 6
    ensures var x := lastOffset as real / 1000.0 * DefaultFractions[k];
      x >= 0.0 && x.Floor == DefaultSeconds(lastOffset, k)
  {
    var p := DefaultPercents[k];
    assert DefaultFractions[k] == p as real / 100.0;
    var a := lastOffset * p;
    assert a as real == lastOffset as real * p as real;
    var x := lastOffset as real / 1000.0 * DefaultFractions[k];
    assert x == a as real / 100000.0;
    WholeSeconds(a, 100000);
  }

  /** The default points never go backwards and never pass the end of the video. */
  lemma {:induction false} DefaultsOrdered(lastOffset: nat, k: nat, l: nat)
    requires k <= l < 6
    ensures DefaultSeconds(lastOffset, k) <= DefaultSeconds(lastOffset, l)
    ensures DefaultSeconds(lastOffset, l) * 1000 <= lastOffset
  {
    MulMonotone(lastOffset, DefaultPercents[k], DefaultPercents[l]);
    MonotoneDiv(lastOffset * DefaultPercents[k], lastOffset * DefaultPercents[l], 100000);
    var q := DefaultSeconds(lastOffset, l);
    DivBound(lastOffset * DefaultPercents[l], 100000);
    MulMonotone(lastOffset, DefaultPercents[l], 100);
    assert q * 100000 <= lastOffset * 100;
  }

  /** A video whose last caption starts at 95 s gets its third default
      point, at 0.4 of the length, at `0:38`. */
  lemma DefaultExample()
    ensures DefaultSegments(95000)[2] == Segment("0:38", "Second Key Point")
  {
    assert DefaultSeconds(95000, 2) == 38;
    SmallNumerals();
    assert 38 / 60 == 0 && 38 % 60 == 38;
    assert TwoDigits(38) == "38";
    assert Clock(38) == "0:38";
  }

  // ---------------------------------------------------------------------------
  // generateTimestamps
  // ---------------------------------------------------------------------------

  /** `generateTimestamps(transcript)` given what the model replied. A failed
      model call is rethrown; reading the last entry of an empty transcript
      throws a `TypeError` on the paths that need the video's length. */
  function GenerateTimestamps(transcript: seq<Entry>, reply: ModelReply,
                              parseJson: string -> Option<seq<Segment>>,
                              arraySpan: string -> Option<string>): (r: Outcome<seq<Segment>>)
    ensures reply.Failed? ==> r == Thrown(reply.exception)
    ensures r.Ok? ==> |r.value| >= 1
    ensures reply.Replied? && |transcript| >= 1 ==> r.Ok?
    ensures r.Thrown? && reply.Replied? ==> r.exception == TypeError && |transcript| == 0
    ensures reply.Replied? && |transcript| == 0 ==>
              var parsed := ParseCascade(reply.text, parseJson, arraySpan);
              r == if parsed != [] && !AllBlankTimes(parsed) then Ok(parsed) else Thrown(TypeError)
    ensures reply.Replied? && |transcript| >= 1 ==>
              var parsed := ParseCascade(reply.text, parseJson, arraySpan);
              var lastOffset := transcript[|transcript| - 1].offset;
              && (parsed != [] ==>
                    |r.value| == |parsed| && forall i :: 0 <= i < |parsed| ==> r.value[i].title == parsed[i].title)
              && (parsed != [] && !AllBlankTimes(parsed) ==> r.value == parsed)
              && (parsed != [] && AllBlankTimes(parsed) ==>
                    forall i :: 0 <= i < |parsed| ==> r.value[i].time == Clock(SlotSeconds(lastOffset, i, |parsed|)))
              && (parsed == [] ==> r.value == DefaultSegments(lastOffset))
  {
    match reply
    case Failed(e) => Thrown(e)
    case Replied(text) =>
      var timestamps := ParseCascade(text, parseJson, arraySpan);
      if |timestamps| > 0 && AllBlankTimes(timestamps) then
        if |transcript| == 0 then Thrown(TypeError)
        else Ok(Redistribute(timestamps, transcript[|transcript| - 1].offset))
      else if |timestamps| > 0 then Ok(timestamps)
      else if |transcript| == 0 then Thrown(TypeError)
      else Ok(DefaultSegments(transcript[|transcript| - 1].offset))
  }
}

=== FILE: video_id.dfy ===
/** src/utils/transcript.js: `extractVideoId` and the one decision
    `getVideoTranscript` makes. The regular expression
        /^.*(youtu.be\/|v\/|e\/|u\/\w+\/|embed\/|v=)([^#\&\?]*).* /
    is written out as a scanner. Its greedy `^.*` backs off from the end of
    the first line, so the marker used is the rightmost one on that line;
    the capture is the longest run after it free of `#`, `&` and `?`; and
    only a capture whose JavaScript `length` is 11 is accepted; that length
    counts UTF-16 code units, so an id with characters outside the Basic
    Multilingual Plane has fewer than 11 characters. The transcript
    library itself is a parameter (`fetch`). */
module VideoId {
  import opened JsStrings
  import opened Domain

  const InvalidUrlMessage: string := "Invalid YouTube URL"

  /** The regular-expression class `\w`. */
  predicate IsWordChar(c: char) {
    ('a' <= c <= 'z') || ('A' <= c <= 'Z') || ('0' <= c <= '9') || c == '_'
  }

  /** Characters the capture `[^#\&\?]*` may not contain. */
  predicate IsIdStop(c: char) {
    c == '#' || c == '&' || c == '?'
  }

  /** End of the first line: the first line terminator, or `|u|`. `.` in
      `^.*` cannot cross it, so no marker can be chosen beyond it. */
  function FirstLineEnd(u: string): (l: nat)
    ensures l <= |u|
    ensures forall i :: 0 <= i < l ==> !IsLineTerminator(u[i])
    ensures l < |u| ==> IsLineTerminator(u[l])
  {
    if |u| == 0 || IsLineTerminator(u[0]) then 0 else 1 + FirstLineEnd(u[1..])
  }

  /** Length of the `\w` run at the start of `s`. */
  function WordRun(s: string): (k: nat)
    ensures k <= |s|
    ensures forall j :: 0 <= j < k ==> IsWordChar(s[j])
    ensures k < |s| ==> !IsWordChar(s[k])
  {
    if |s| > 0 && IsWordChar(s[0]) then 1 + WordRun(s[1..]) else 0
  }

  /** The length of the alternation `(youtu.be\/|v\/|e\/|u\/\w+\/|embed\/|v=)`
      matched at the start of `s`, its alternatives tried in the order
      written. The `.` of `youtu.be` is unescaped and stands for any
      character but a line terminator; `\w+` is greedy and must be
      followed by `/`. Every alternative ends in `/` or in `v=`. */
  function MarkerLength(s: string): (r: Option<nat>)
    ensures r.Some? ==> 2 <= r.value <= |s|
    ensures r.Some? ==> s[r.value - 1] == '/' || (s[r.value - 1] == '=' && s[r.value - 2] == 'v')
  {
    if |s| >= 9 && s[..5] == "youtu" && !IsLineTerminator(s[5]) && s[6..9] == "be/" then Some(9)
    else if StartsWith(s, "v/") then Some(2)
    else if StartsWith(s, "e/") then Some(2)
    else if StartsWith(s, "u/") && 0 < WordRun(s[2..]) < |s| - 2 && s[2 + WordRun(s[2..])] == '/' then
      Some(3 + WordRun(s[2..]))
    else if StartsWith(s, "embed/") then Some(6)
    else if StartsWith(s, "v=") then Some(2)
    else None
  }

  /** Where the marker tried at `p` ends, when one matches there. */
  function MarkerEnd(u: string, p: nat): (r: Option<nat>)
    requires p <= |u|
    ensures r.Some? ==> p + 2 <= r.value <= |u|
    ensures r.Some? ==> u[r.value - 1] == '/' || (u[r.value - 1] == '=' && u[r.value - 2] == 'v')
  {
    match MarkerLength(u[p..])
    case None => None
    case Some(k) =>
      assert u[p + k - 1] == u[p..][k - 1] && u[p + k - 2] == u[p..][k - 2];
      Some(p + k)
  }

  /** A marker the pattern can use starts at `p`: it lies within the
      reach of `^.*` and one alternative matches there. */
  ghost predicate IsMarkerAt(u: string, p: nat) {
    p <= FirstLineEnd(u) && MarkerEnd(u, p).Some?
  }

  /** `p` is the marker greedy `^.*` settles on: no later one exists. */
  ghost predicate IsRightmostMarker(u: string, p: nat) {
    IsMarkerAt(u, p) && forall q :: p < q <= FirstLineEnd(u) ==> MarkerEnd(u, q).None?
  }

  /** The last position at or before `p` where `hit` holds, looking right to left. */
  function LastUpTo(hit: nat -> bool, p: nat): (r: Option<nat>)
    ensures r.Some? ==> r.value <= p && hit(r.value)
    ensures r.Some? ==> forall q :: r.value < q <= p ==> !hit(q)
    ensures r.None? ==> forall q :: 0 <= q <= p ==> !hit(q)
  {
    if hit(p) then Some(p)
    else if p == 0 then None
    else
      var r := LastUpTo(hit, p - 1);
      assert forall q :: 0 <= q <= p && hit(q) ==> q <= p - 1;
      r
  }

  /** The last marker at or before `p`. */
  function LastMarkerUpTo(u: string, p: nat): (r: Option<nat>)
    requires p <= |u|
    ensures r.Some? ==> r.value <= p && MarkerEnd(u, r.value).Some?
    ensures r.Some? ==> forall q :: r.value < q <= p ==> MarkerEnd(u, q).None?
    ensures r.None? ==> forall q :: 0 <= q <= p ==> MarkerEnd(u, q).None?
  {
    var hit := (q: nat) => q <= |u| && MarkerEnd(u, q).Some?;
    var r := LastUpTo(hit, p);
    assert forall q: nat :: q <= |u| ==> (hit(q) <==> MarkerEnd(u, q).Some?);
    r
  }

  /** The capture `([^#\&\?]*)` starting at `e`: the longest run free of `#`, `&`, `?`. */
  function IdRun(u: string, e: nat): (run: string)
    requires e <= |u|
    ensures e + |run| <= |u| && run == u[e..e + |run|]
    ensures forall i :: 0 <= i < |run| ==> !IsIdStop(run[i])
    ensures e + |run| < |u| ==> IsIdStop(u[e + |run|])
    decreases |u| - e
  {
    if e < |u| && !IsIdStop(u[e]) then
      var tail := IdRun(u, e + 1);
      assert [u[e]] + tail == u[e..e + 1 + |tail|];
      [u[e]] + tail
    else []
  }

  /** `extractVideoId(url)`: the capture after the rightmost marker on the
      first line when its UTF-16 length is 11, otherwise null. */
  function ExtractVideoId(url: string): (r: Option<string>)
    ensures r.Some? ==> Utf16Length(r.value) == 11 && 6 <= |r.value| <= 11
    ensures r.Some? ==> forall i :: 0 <= i < |r.value| ==> !IsIdStop(r.value[i])
    ensures r.Some? ==> exists p :: IsRightmostMarker(url, p) && r.value == IdRun(url, MarkerEnd(url, p).value)
    ensures (forall p :: 0 <= p <= FirstLineEnd(url) ==> MarkerEnd(url, p).None?) ==> r.None?
  {
    match LastMarkerUpTo(url, FirstLineEnd(url))
    case None => None
    case Some(p) =>
      var run := IdRun(url, MarkerEnd(url, p).value);
      assert IsRightmostMarker(url, p);
      if Utf16Length(run) == 11 then Some(run) else None
  }

  /** The rightmost marker is unique, so once it is known the result is
      decided by the length of its capture alone: the capture when its
      length is 11, null otherwise. */
  lemma {:induction false} ExtractAtRightmost(u: string, m: nat)
    requires IsRightmostMarker(u, m)
    ensures var run := IdRun(u, MarkerEnd(u, m).value);
            ExtractVideoId(u) == if Utf16Length(run) == 11 then Some(run) else None
  {
    var r := LastMarkerUpTo(u, FirstLineEnd(u));
    assert r == Some(m) by {
      if r.None? || r.value < m {
        assert MarkerEnd(u, m).None?;
      } else if m < r.value {
        assert MarkerEnd(u, r.value).None?;
      }
    }
  }

  /** No character of `s` can close a marker: no `/`, and no `=` right after a `v`. */
  predicate NoMarkerChars(s: string) {
    forall i :: 0 <= i < |s| ==> s[i] != '/' && (s[i] == '=' && i > 0 ==> s[i - 1] != 'v')
  }

  /** Every alternative of the marker ends in `/` or `v=`, so none starts
      at or after `p` when no such ending follows. */
  lemma {:induction false} NoMarkerFrom(u: string, p: nat)
    requires p <= |u|
    requires forall i :: p < i < |u| ==> u[i] != '/' && (u[i] == '=' ==> u[i - 1] != 'v')
    ensures forall q :: p <= q <= |u| ==> MarkerEnd(u, q).None?
  {
  }

  /** Facts about `head + s` at positions past `head`, read off `s`. */
  lemma {:induction false} NoMarkerAfter(head: string, s: string)
    requires |head| >= 1 && head[|head| - 1] != 'v'
    requires NoMarkerChars(s)
    ensures forall q :: |head| - 1 <= q <= |head + s| ==> MarkerEnd(head + s, q).None?
  {
    var u := head + s;
    forall i | |head| - 1 < i < |u|
      ensures u[i] != '/' && (u[i] == '=' ==> u[i - 1] != 'v')
    {
      assert u[i] == s[i - |head|];
      if i - 1 >= |head| {
        assert u[i - 1] == s[i - 1 - |head|];
      }
    }
    NoMarkerFrom(u, |head| - 1);
  }

  /** `s` holds no line terminator. */
  predicate OneLine(s: string) {
    forall i :: 0 <= i < |s| ==> !IsLineTerminator(s[i])
  }

  lemma {:induction false} OneLineConcat(a: string, b: string)
    requires OneLine(a) && OneLine(b)
    ensures OneLine(a + b)
  {
    forall i | |a| <= i < |a + b|
      ensures !IsLineTerminator((a + b)[i])
    {
      assert (a + b)[i] == b[i - |a|];
    }
  }

  /** A line break cannot come before the end of a break-free prefix. */
  lemma {:induction false} FirstLineReaches(u: string, k: nat)
    requires k <= |u|
    requires forall i :: 0 <= i < k ==> !IsLineTerminator(u[i])
    ensures FirstLineEnd(u) >= k
  {
  }

  /** After a one-line `head` the first line has not yet ended. */
  lemma {:induction false} PrefixOneLine(head: string, rest: string)
    requires OneLine(head)
    ensures FirstLineEnd(head + rest) >= |head|
  {
    var u := head + rest;
    assert forall i :: 0 <= i < |head| ==> u[i] == head[i];
    FirstLineReaches(u, |head|);
  }

  const ShortPrefix: string := "https://youtu.be/"
  const WatchPrefix: string := "https://www.youtube.com/watch?v="

  lemma PrefixesOneLine()
    ensures OneLine(ShortPrefix) && OneLine(WatchPrefix) && OneLine(EmbedPrefix)
  {
  }

  /** An id of JavaScript length 11 that the capture can take whole. */
  predicate IsCapturableId(id: string) {
    Utf16Length(id) == 11 && forall i :: 0 <= i < |id| ==> !IsIdStop(id[i]) && !IsLineTerminator(id[i])
  }

  /** In a short link the `e/` of `youtu.be/` is a marker ending where the id starts. */
  lemma {:induction false} ShortPrefixMarker(rest: string)
    ensures MarkerEnd(ShortPrefix + rest, 15) == Some(17)
  {
    var u := ShortPrefix + rest;
    var s := u[15..];
    assert s[..2] == "e/";
    assert |s| >= 9 ==> s[..5][0] == 'e';
    assert MarkerLength(s) == Some(2);
  }

  /** In a watch link the `v=` of the query is a marker ending where the id starts. */
  lemma {:induction false} WatchPrefixMarker(rest: string)
    ensures MarkerEnd(WatchPrefix + rest, 30) == Some(32)
  {
    var u := WatchPrefix + rest;
    var s := u[30..];
    assert s[..2] == "v=";
    assert |s| >= 9 ==> s[..5][0] == 'v';
    assert |s| >= 6 ==> s[..6][0] == 'v';
    assert MarkerLength(s) == Some(2);
  }

  /** A `v/` after a `/` is a marker. */
  lemma {:induction false} SlashVMarker(front: string, rest: string)
    ensures MarkerEnd(front + "/v/" + rest, |front| + 1) == Some(|front| + 3)
  {
    var u := front + "/v/" + rest;
    var s := u[|front| + 1..];
    assert s[..2] == "v/";
    assert |s| >= 9 ==> s[..5][0] == 'v';
    assert MarkerLength(s) == Some(2);
  }

  /** The capture over a stop-free block of `n` characters that ends the
      string or meets a stop character is exactly that block. */
  lemma {:induction false} IdRunOver(u: string, e: nat, n: nat)
    requires e + n <= |u|
    requires forall k :: e <= k < e + n ==> !IsIdStop(u[k])
    requires e + n == |u| || IsIdStop(u[e + n])
    ensures IdRun(u, e) == u[e..e + n]
    decreases n
  {
    if n > 0 {
      IdRunOver(u, e + 1, n - 1);
      assert u[e..e + n] == [u[e]] + u[e + 1..e + n];
    }
  }

  /** The capture starting at `e` over an id followed by a stop character (or nothing) is the id. */
  lemma {:induction false} CaptureIsId(u: string, e: nat, id: string, tail: string)
    requires e + |id| + |tail| == |u| && u[e..] == id + tail
    requires IsCapturableId(id)
    requires tail == [] || IsIdStop(tail[0])
    ensures IdRun(u, e) == id
  {
    forall k | e <= k < e + |id|
      ensures !IsIdStop(u[k])
    {
      assert u[k] == u[e..][k - e] == id[k - e];
    }
    assert e + |id| < |u| ==> u[e + |id|] == u[e..][|id|] == tail[0];
    IdRunOver(u, e, |id|);
    assert u[e..e + |id|] == u[e..][..|id|] == id;
  }

  /** With no stop character after `e`, the capture runs to the end. */
  lemma {:induction false} CaptureToEnd(u: string, e: nat)
    requires e <= |u|
    requires forall k :: e <= k < |u| ==> !IsIdStop(u[k])
    ensures IdRun(u, e) == u[e..]
  {
    IdRunOver(u, e, |u| - e);
  }

  /** A capture starting where a stop-free tail begins takes the whole tail. */
  lemma {:induction false} CaptureOfTail(head: string, tail: string)
    requires forall i :: 0 <= i < |tail| ==> !IsIdStop(tail[i])
    ensures IdRun(head + tail, |head|) == tail
  {
    var u := head + tail;
    forall k | |head| <= k < |u|
      ensures !IsIdStop(u[k])
    {
      assert u[k] == tail[k - |head|];
    }
    CaptureToEnd(u, |head|);
    assert u[|head|..] == tail;
  }

  /** A link whose one-line `head` holds a marker starting at `p` and
      closing at `|head|`, followed by an id and a marker-free remainder,
      yields the id. Any later marker must close at `|head|` too, as the
      `e/` closing `youtu.be/` or the `e/` closing `u/joe/` does. */
  lemma {:induction false} LinkYieldsId(head: string, p: nat, id: string, tail: string)
    requires p + 2 <= |head| && OneLine(head)
    requires MarkerEnd(head + (id + tail), p) == Some(|head|)
    requires forall q :: p < q < |head| - 1 ==> MarkerEnd(head + (id + tail), q) in {None, Some(|head|)}
    requires IsCapturableId(id) && NoMarkerChars(id + tail)
    requires tail == [] || IsIdStop(tail[0])
    ensures ExtractVideoId(head + (id + tail)) == Some(id)
  {
    var u := head + (id + tail);
    assert u[|head| - 1] == head[|head| - 1];
    NoMarkerAfter(head, id + tail);
    PrefixOneLine(head, id + tail);
    var m := LastMarkerUpTo(u, FirstLineEnd(u));
    assert m.Some? && p <= m.value < |head| - 1;
    assert IsRightmostMarker(u, m.value);
    assert u[|head|..] == id + tail;
    CaptureIsId(u, |head|, id, tail);
    ExtractAtRightmost(u, m.value);
  }

  /** A short link yields its id, whatever query or fragment follows it. */
  lemma {:induction false} ShortLinkId(id: string, tail: string)
    requires IsCapturableId(id) && NoMarkerChars(id + tail)
    requires tail == [] || IsIdStop(tail[0])
    ensures ExtractVideoId(ShortPrefix + id + tail) == Some(id)
  {
    assert ShortPrefix + id + tail == ShortPrefix + (id + tail);
    PrefixesOneLine();
    ShortPrefixMarker(id + tail);
    LinkYieldsId(ShortPrefix, 15, id, tail);
  }

  /** A watch link yields the id after `v=`, whatever query follows it. */
  lemma {:induction false} WatchLinkId(id: string, tail: string)
    requires IsCapturableId(id) && NoMarkerChars(id + tail)
    requires tail == [] || IsIdStop(tail[0])
    ensures ExtractVideoId(WatchPrefix + id + tail) == Some(id)
  {
    assert WatchPrefix + id + tail == WatchPrefix + (id + tail);
    PrefixesOneLine();
    WatchPrefixMarker(id + tail);
    LinkYieldsId(WatchPrefix, 30, id, tail);
  }

  /** Every marker starting from `lo - 1` on closes at `|head|` when `head`
      ends in `/`, holds no `/` or `=` from `lo` on before that, and is
      followed by a marker-free remainder: the only possible closing
      character is the final slash of `head`. */
  lemma {:induction false} MarkersCloseAtHead(head: string, rest: string, lo: nat)
    requires 1 <= lo < |head| && head[|head| - 1] == '/'
    requires forall i :: lo <= i < |head| - 1 ==> head[i] != '/' && head[i] != '='
    requires NoMarkerChars(rest)
    ensures forall q :: lo - 1 <= q < |head| - 1 ==> MarkerEnd(head + rest, q) in {None, Some(|head|)}
  {
  }

  const EmbedPrefix: string := "https://www.youtube.com/embed/"

  /** An embed link yields its id, whatever query follows it. */
  lemma {:induction false} EmbedLinkId(id: string, tail: string)
    requires IsCapturableId(id) && NoMarkerChars(id + tail)
    requires tail == [] || IsIdStop(tail[0])
    ensures ExtractVideoId(EmbedPrefix + id + tail) == Some(id)
  {
    var u := EmbedPrefix + (id + tail);
    assert EmbedPrefix + id + tail == u;
    var s := u[24..];
    assert s[..6] == "embed/";
    assert s[..5][0] == 'e' && s[..2][1] == 'm';
    assert MarkerEnd(u, 24) == Some(30);
    PrefixesOneLine();
    MarkersCloseAtHead(EmbedPrefix, id + tail, 26);
    LinkYieldsId(EmbedPrefix, 24, id, tail);
  }

  const UserPrefix: string := "https://www.youtube.com/u/"

  /** A user name: a non-empty run of `\w` characters. */
  predicate IsUserName(name: string) {
    |name| > 0 && forall i :: 0 <= i < |name| ==> IsWordChar(name[i])
  }

  /** The `u/` of a user link is a marker closing at the slash after the name. */
  lemma {:induction false} UserPrefixMarker(name: string, rest: string)
    requires IsUserName(name)
    ensures MarkerEnd(UserPrefix + name + "/" + rest, 24) == Some(27 + |name|)
  {
    var u := UserPrefix + name + "/" + rest;
    var s := u[24..];
    assert s[..2] == "u/";
    assert s[2..] == name + "/" + rest;
    assert (name + "/" + rest)[|name|] == '/';
    assert WordRun(s[2..]) == |name|;
    assert |s| >= 9 ==> s[..5][0] == 'u';
    assert |s| >= 6 ==> s[..6][0] == 'u';
  }

  /** The head of a user link is one line, and after `u/` only its final
      slash can close a marker. */
  lemma {:induction false} UserHead(name: string)
    requires IsUserName(name)
    ensures var head := UserPrefix + name + "/";
            OneLine(head) && forall i :: 26 <= i < |head| - 1 ==> head[i] != '/' && head[i] != '='
  {
    var head := UserPrefix + name + "/";
    forall i | 0 <= i < |head|
      ensures !IsLineTerminator(head[i]) && (26 <= i < |head| - 1 ==> head[i] != '/' && head[i] != '=')
    {
      if 26 <= i < |head| - 1 {
        assert head[i] == name[i - 26];
      }
    }
  }

  /** A `u/<name>/` link yields the id after the name, even when the name
      ends in `v` or `e`, which makes a second marker close at the same slash. */
  lemma {:induction false} UserLinkId(name: string, id: string, tail: string)
    requires IsUserName(name)
    requires IsCapturableId(id) && NoMarkerChars(id + tail)
    requires tail == [] || IsIdStop(tail[0])
    ensures ExtractVideoId(UserPrefix + name + "/" + id + tail) == Some(id)
  {
    var head := UserPrefix + name + "/";
    assert UserPrefix + name + "/" + id + tail == head + (id + tail);
    assert UserPrefix + name + "/" + (id + tail) == head + (id + tail);
    UserPrefixMarker(name, id + tail);
    UserHead(name);
    MarkersCloseAtHead(head, id + tail, 26);
    LinkYieldsId(head, 24, id, tail);
  }

  /** In `head + s + "/"` with a marker-free `s`, a marker starting after
      `head` can only close at the final slash. */
  lemma {:induction false} MarkersEndLast(head: string, s: string)
    requires |head| >= 1 && head[|head| - 1] != 'v' && NoMarkerChars(s)
    ensures var u := head + s + "/";
            forall q :: |head| - 1 <= q <= |u| && MarkerEnd(u, q).Some? ==> MarkerEnd(u, q).value == |u|
  {
    var u := head + s + "/";
    forall i | |head| - 1 < i < |u| - 1
      ensures u[i] != '/' && (u[i] == '=' ==> u[i - 1] != 'v')
    {
      assert u[i] == s[i - |head|];
      if i - 1 >= |head| {
        assert u[i - 1] == s[i - 1 - |head|];
      }
    }
  }

  /** The capture is not restricted to id characters: a short link with a
      trailing `/` is refused. The capture after `youtu.be/` then has
      length 12, and any marker the slash closes leaves an empty one. */
  lemma {:induction false} TrailingSlashRefused(id: string)
    requires IsCapturableId(id) && NoMarkerChars(id)
    ensures ExtractVideoId(ShortPrefix + id + "/").None?
  {
    var u := ShortPrefix + id + "/";
    assert u == ShortPrefix + (id + "/");
    PrefixesOneLine();
    PrefixOneLine(ShortPrefix, id + "/");
    ShortPrefixMarker(id + "/");
    MarkersEndLast(ShortPrefix, id);
    CaptureOfTail(ShortPrefix, id + "/");
    Utf16LengthConcat(id, "/");
    forall p: nat | IsRightmostMarker(u, p)
      ensures Utf16Length(IdRun(u, MarkerEnd(u, p).value)) != 11
    {
      assert p >= 15;
      if p > 15 {
        assert MarkerEnd(u, p).value == |u|;
      }
    }
  }

  /** In a watch link followed by `/v/`, the `v/` just before `other` is the rightmost marker. */
  lemma {:induction false} LaterVMarker(id: string, other: string)
    requires IsCapturableId(id) && NoMarkerChars(id) && NoMarkerChars(other)
    ensures var head := WatchPrefix + id + "/v/";
            MarkerEnd(head + other, |head| - 2) == Some(|head|) && IsRightmostMarker(head + other, |head| - 2)
  {
    var front := WatchPrefix + id;
    var head := front + "/v/";
    var m := |front| + 1;
    PrefixesOneLine();
    OneLineConcat(WatchPrefix, id);
    OneLineConcat(front, "/v/");
    PrefixOneLine(head, other);
    NoMarkerAfter(head, other);
    SlashVMarker(front, other);
  }

  /** When the rightmost marker ends where a stop-free tail begins, the
      tail is the result exactly when its length is 11. */
  lemma {:induction false} RightmostCaptureOfTail(head: string, tail: string, m: nat)
    requires forall i :: 0 <= i < |tail| ==> !IsIdStop(tail[i])
    requires IsRightmostMarker(head + tail, m) && MarkerEnd(head + tail, m) == Some(|head|)
    ensures ExtractVideoId(head + tail) == if Utf16Length(tail) == 11 then Some(tail) else None
  {
    CaptureOfTail(head, tail);
    ExtractAtRightmost(head + tail, m);
  }

  /** The rightmost marker wins: a watch link followed by `/v/` and more
      text yields that text when its length is 11 and nothing otherwise,
      whatever id the `v=` parameter carried. */
  lemma {:induction false} RightmostMarkerWins(id: string, other: string)
    requires IsCapturableId(id) && NoMarkerChars(id)
    requires NoMarkerChars(other) && forall i :: 0 <= i < |other| ==> !IsIdStop(other[i])
    ensures ExtractVideoId(WatchPrefix + id + "/v/" + other) == if Utf16Length(other) == 11 then Some(other) else None
  {
    var head := WatchPrefix + id + "/v/";
    LaterVMarker(id, other);
    RightmostCaptureOfTail(head, other, |head| - 2);
  }

  /** A short link whose id has characters outside the Basic Multilingual
      Plane: five U+1F600 and an `a` make six characters, but a JavaScript
      length of 11, so the id is accepted. */
  lemma AstralIdAccepted()
    ensures var id := "\U{1F600}\U{1F600}\U{1F600}\U{1F600}\U{1F600}a";
            |id| == 6 && ExtractVideoId(ShortPrefix + id) == Some(id)
  {
    var id := "\U{1F600}\U{1F600}\U{1F600}\U{1F600}\U{1F600}a";
    assert Utf16Length(id) == 11;
    ShortLinkId(id, "");
    assert ShortPrefix + id + "" == ShortPrefix + id;
  }

  /** `getVideoTranscript(url)`: rejects with "Invalid YouTube URL" when no
      id can be extracted, and otherwise hands the id to the transcript
      library, passing its result or its rejection through unchanged. */
  function GetVideoTranscript(url: string, fetch: string -> Outcome<seq<Entry>>): (r: Outcome<seq<Entry>>)
    ensures ExtractVideoId(url).None? ==> r == Thrown(Error(InvalidUrlMessage))
    ensures ExtractVideoId(url).Some? ==> r == fetch(ExtractVideoId(url).value)
  {
    var videoId := ExtractVideoId(url);
    if videoId.None? then Thrown(Error(InvalidUrlMessage))
    else fetch(videoId.value)
  }
}
